=== FILE: README.md ===
# DHA1001 transit pipeline: master flat and source catalogue

A Dafny model of two pieces of the DHA1001 transit photometry pipeline.

- **Master flat** (`crear_masterflat`). Each raw flat has the master bias and
  the master dark subtracted, when they are configured. It is then divided by
  its own median. The normalised flats are combined pixel by pixel, and every
  combined pixel that is not strictly positive is replaced by the smallest
  strictly positive pixel. Unless `recalcular` is set, an existing master flat
  is reused.
- **Source catalogue** (`dao_busqueda`, `dao_recentrar`). Sources are found in
  a reduced image, or recentred around reference positions. Only detections
  with 150 < x < 1850 and 150 < y < 1850 are kept; these are fixed pixel
  limits, whatever the size of the image. The positions are kept in a text table
  whose name comes from the image name by `re.sub(".fits?", ".pos.dat", ...)`.
  Unless `recalcular` is set, a stored table is returned instead of touching
  the image.

Frames are flattened into `seq<real>` and pixel values are exact reals. The
file system is a `Store`: a map of FITS images and a map of numeric text
tables, both keyed by path. Each operation also returns the paths it tried to
read, in order, so the cache rules can be stated as "this file was never
opened". The astropy and photutils routines are function-valued parameters
with no assumed properties: the sigma-clipped combiner, `sigma_clipped_stats`,
`DAOStarFinder` and the per-source centroid of `centroid_sources`.

Modules: `Outcomes` (Option, Result), `Storage` (images, tables, paths),
`Statistics` (median through a sorted copy, and how it commutes with increasing
maps), `MasterFlat`, `Positions` (border cut), `PosName` (cache file name),
`PosTable` (saving and loading the N x 2 table) and `Dao` (the two routines).

The two routines take a `Reading` of the stored table. `AsWritten` follows
`np.loadtxt` as the code calls it: a table of zero or one row comes back one
dimensional, and `pos_data[:, 0]` fails. `Intended` reads any N x 2 table back
as N rows. Every Dao property is stated for both readings, and where the
readings part, lemmas show what goes wrong as written (see Findings).

## Model

| member | source | states |
|---|---|---|
| MasterFlat.SubtractMaster | transitos_dha1001/reduccion/master_flat.py:66-69 | Subtracting one master succeeds exactly when it is absent or has as many pixels as the frame, and otherwise fails with a shape mismatch. Pixel i is then frame[i] minus the master's pixel i, or frame[i] itself when there is no master. |
| MasterFlat.Calibrate | transitos_dha1001/reduccion/master_flat.py:51-69 | The corrected frame exists exactly when every configured master has as many pixels as the raw frame (shapes are compared by pixel count; see Left out). Its pixel i is raw[i] minus bias[i] minus dark[i]. Bias comes first and dark second, and a master named `None` contributes nothing instead of failing. |
| MasterFlat.CalibrateWithoutMasters | transitos_dha1001/reduccion/master_flat.py:66-69 | With neither master configured, the raw frame passes through unchanged. |
| MasterFlat.Normalise | transitos_dha1001/reduccion/master_flat.py:72-73 | Division by the frame's own median keeps the frame's length. It fails exactly when a non-empty frame has median zero. Otherwise pixel i of the result is pixel i of the frame divided by the frame's median. |
| MasterFlat.NormalisedMedianIsOne | transitos_dha1001/reduccion/master_flat.py:72-73 | A frame with a positive median is normalised to a frame whose median is exactly 1. |
| MasterFlat.NormaliseScaleInvariant | transitos_dha1001/reduccion/master_flat.py:72-73 | Multiplying every pixel by k > 0 leaves the normalised frame unchanged, including whether it fails. |
| MasterFlat.ReduceFrame | transitos_dha1001/reduccion/master_flat.py:65-73 | No ensures of its own; its body is the definition: the corrected frame (`Calibrate`), then divided by its median (`Normalise`). What it yields is stated by MasterFlat.ReduceFramePixels. |
| MasterFlat.ReduceFramePixels | transitos_dha1001/reduccion/master_flat.py:65-73 | A raw flat reduces exactly when both configured masters have its pixel count and the corrected frame is empty or has a non-zero median. A shape mismatch is its own error. Pixel i of the reduced frame is (raw[i] - bias[i] - dark[i]) divided by the median of the corrected frame. |
| MasterFlat.ReduceFrameScaleInvariant | transitos_dha1001/reduccion/master_flat.py:65-73 | With no bias or dark, two exposures that differ by an illumination factor k > 0 give the same normalised flat. |
| MasterFlat.ReduceFlats | transitos_dha1001/reduccion/master_flat.py:57-76 | The loop succeeds exactly when every raw flat exists and reduces against the masters. Then every raw flat was opened in input order, and frame i is the corrected and normalised image of name i. On failure there is an index k such that every earlier flat reduces and flat k does not. The paths opened are exactly those of flats 0 to k, and the error is flat k's: missing, or that frame's own error. |
| MasterFlat.OpenMaster | transitos_dha1001/reduccion/master_flat.py:51-54 | A master named `None` is neither opened nor required. A named master is opened at its path, and the build fails exactly when that path is absent, with the error naming that path (`fits.open`'s `FileNotFoundError`). |
| MasterFlat.MinPositive | transitos_dha1001/reduccion/master_flat.py:84 | When some pixel is positive, the result is a positive pixel of the frame and no larger than any positive pixel. |
| MasterFlat.Clamp | transitos_dha1001/reduccion/master_flat.py:84-85 | After the clamp every pixel is strictly positive. Positive pixels are unchanged, and every pixel at or below zero becomes the smallest positive pixel of the input. |
| MasterFlat.ClampIdempotent | transitos_dha1001/reduccion/master_flat.py:84-85 | Clamping a clamped flat changes nothing. |
| MasterFlat.ClampMinimum | transitos_dha1001/reduccion/master_flat.py:84-85 | The smallest pixel of the clamped flat equals the smallest positive pixel of its input. |
| MasterFlat.OpenMasters | transitos_dha1001/reduccion/master_flat.py:50-54 | The bias is opened before the dark, each only when it is named. Both succeed exactly when every named master exists, and then the result holds their pixels and both paths were opened. A missing bias is reported after opening only the bias path, before the dark is tried. A missing dark is reported after opening the bias and the dark. |
| MasterFlat.BuildFlat | transitos_dha1001/reduccion/master_flat.py:50-85 | Its contract is `BuildSpec`. The build opens the masters and then the raw flats, in order. It succeeds exactly when both named masters exist, every raw flat reduces, and the combined normalised frames have a positive pixel; it then yields their clamped combination, having opened every path. A missing bias stops after the bias path and a missing dark after the dark path, each with its own error. Otherwise, the first raw flat k that is missing or does not reduce stops the build right after path k, with that flat's own error. No positive pixel is an error after every path was opened. |
| MasterFlat.WriteImage | transitos_dha1001/reduccion/master_flat.py:88 | `fits.writeto(..., overwrite=True)`: afterwards the path holds the written flat, every other image is unchanged, the set of image paths gains only that path, and the tables are untouched. |
| MasterFlat.CrearMasterflat | transitos_dha1001/reduccion/master_flat.py:41-88 | With `recalcular` unset and a stored master flat, only that file is opened and nothing changes. Otherwise it first looks for the flat path (only when `recalcular` is unset), and then behaves as `BuildSpec` states: the same order of reads, the same success condition, the same error and stopping point for a missing bias, a missing dark, the first failing raw flat and no positive pixel. On success it writes the clamped combination at the flat path, every pixel of which is strictly positive, and leaves every other image and table alone. |
| MasterFlat.BuildFlatAgree | transitos_dha1001/reduccion/master_flat.py:50-85 | When no input path is the flat path, two stores that differ only at the flat path give the same build. |
| MasterFlat.RecomputeIgnoresStoredFlat | transitos_dha1001/reduccion/master_flat.py:41-43 | With `recalcular` set, two stores that differ only in the master flat give the same accesses, the same error and the same new flat. |
| MasterFlat.SecondBuildReuses | transitos_dha1001/reduccion/master_flat.py:41-46 | After a successful build, a call with `recalcular` unset opens only the master flat and returns the store unchanged, whatever the inputs. |
| Statistics.Median | transitos_dha1001/reduccion/master_flat.py:72 | No ensures of its own; its body is the definition of `np.median`: the middle pixel of the sorted frame, or the mean of the two middle pixels for an even count. Its properties are the lemmas below. |
| Statistics.Sort | transitos_dha1001/reduccion/master_flat.py:72 | The sorted copy used by the median is sorted and is a permutation of the frame. |
| Statistics.MedianApply | transitos_dha1001/reduccion/master_flat.py:72 | The median commutes with every strictly increasing map that keeps midpoints. |
| Statistics.MedianScale | transitos_dha1001/reduccion/master_flat.py:72 | The median of a frame scaled by c > 0 is the scaled median. |
| Statistics.MedianBetween | transitos_dha1001/reduccion/master_flat.py:72 | Some pixel of the frame is at or below the median, and some pixel is at or above it. |
| Statistics.MedianConstant | transitos_dha1001/reduccion/master_flat.py:72 | A frame whose pixels all hold one value has that value as its median. |
| Positions.BorderFilter | transitos_dha1001/fotometria/dao.py:65-67 | The masked x and y columns have the same length, which is at most the input length. |
| Positions.BorderFilterAligned | transitos_dha1001/fotometria/dao.py:65-67 | Masking the two columns separately and stacking them gives exactly the detections inside the border. Each survivor keeps its own x and y, in detection order. |
| Positions.KeepInside | transitos_dha1001/fotometria/dao.py:65-67 | The reference cut on whole positions: the result is no longer than the input. Which positions survive, and in what order, is stated by Positions.KeepInsideMembers and Positions.KeepInsideOrder. |
| Positions.KeepInsideMembers | transitos_dha1001/fotometria/dao.py:65 | A position survives exactly when it was detected and 150 < x < 1850 and 150 < y < 1850. |
| Positions.KeepInsideOrder | transitos_dha1001/fotometria/dao.py:65-67 | Survivor k is the detection at a strictly increasing index, so relative detector order is kept. Every detection inside the border is among the survivors. |
| Positions.KeepInsideIdempotent | transitos_dha1001/fotometria/dao.py:65-67 | Cutting an already cut catalogue changes nothing. |
| Positions.BorderFilterIdempotent | transitos_dha1001/fotometria/dao.py:65-67 | The column form of the cut is idempotent too. |
| Positions.BorderIsStrict | transitos_dha1001/fotometria/dao.py:65 | Sources exactly on 150 or on 1850 are dropped, and sources just inside are kept. |
| Positions.Stack | transitos_dha1001/fotometria/dao.py:73 | `np.vstack((x, y)).T` has one row per source. Its inverse is stated by Positions.StackColumns and Positions.ColumnsOfStack. |
| Positions.StackColumns | transitos_dha1001/fotometria/dao.py:73 | Stacking the two columns of a position table gives the table back. |
| Positions.ColumnsOfStack | transitos_dha1001/fotometria/dao.py:73 | Splitting a stacked table into columns gives the two columns back. |
| PosName.Substitute | transitos_dha1001/fotometria/dao.py:36 | No ensures of its own; its body is the definition of `re.sub(".fits?", ".pos.dat", s)`: scan left to right, replace each non-overlapping match (any non-newline character, then `fit`, then an optional `s`), copy every other character. Its behaviour is stated by the PosName lemmas below. |
| PosName.PosFileName | transitos_dha1001/fotometria/dao.py:36 | No ensures of its own; its body is the definition: the table name is `Substitute(imagen)`, the same in both routines (line 107). |
| PosName.SubstituteNoMatch | transitos_dha1001/fotometria/dao.py:36 | A name with no "fit" in it is left unchanged by the substitution. |
| PosName.PosFileNameOfFitsImage | transitos_dha1001/fotometria/dao.py:36 | For `stem.fits` or `stem.fit` with no match of the pattern starting inside the stem, the table name is `stem.pos.dat`. This includes stems whose only "fit" is at their start, such as `fitting.fits`. |
| PosName.NoFitNoMatch | transitos_dha1001/fotometria/dao.py:36 | A stem with no "fit" in it has no match of the pattern starting inside it, even with `.fits` or `.fit` appended. |
| PosName.LeadingFitKept | transitos_dha1001/fotometria/dao.py:36 | `fitting.fits` gets the table `fitting.pos.dat`: a "fit" at the very start has no character before it for the `.` to match. |
| PosName.SubstitutePrefix | transitos_dha1001/fotometria/dao.py:107 | Characters at which no match starts are copied unchanged, left to right. |
| PosName.WildcardReplacesAnyCharacter | transitos_dha1001/fotometria/dao.py:36 | The unescaped `.` matches any character. A "fit" inside the stem is replaced together with the character before it, so the result holds two `.pos.dat` (for example, `profit.fits` becomes `pr.pos.dat.pos.dat`). |
| PosName.SharedCacheFile | transitos_dha1001/fotometria/dao.py:107 | Two different images can get the same table name. |
| PosTable.Save | transitos_dha1001/fotometria/dao.py:70 | The saved table has one row of exactly two values per source. |
| PosTable.LoadColumnsAsWritten | transitos_dha1001/fotometria/dao.py:43-45 | As written, columns are taken only from a table of at least two rows. Both columns then have one entry per row. |
| PosTable.LoadColumns | transitos_dha1001/fotometria/dao.py:43-45 | The intended reading: on success both columns have one entry per table row. That it returns exactly the saved columns for any number of rows is stated by PosTable.SaveLoadRoundTrip. |
| PosTable.SaveLoadRoundTrip | transitos_dha1001/fotometria/dao.py:43-45 | Loading a saved table gives back the same x and y columns, in the same order, for any number of sources. |
| PosTable.SaveLoadAsWrittenRoundTrip | transitos_dha1001/fotometria/dao.py:43-45 | With the reading as written, the round trip holds for two or more sources. |
| PosTable.SmallCatalogueUnreadable | transitos_dha1001/fotometria/dao.py:43-45 | With the reading as written, a saved table of zero or one source cannot be read back. |
| PosTable.LoadColumnsExtendsAsWritten | transitos_dha1001/fotometria/dao.py:43-45 | The corrected reading agrees with the written one wherever the written one succeeds. |
| Dao.LoadPositions | transitos_dha1001/fotometria/dao.py:43-45 | Under either reading of `loadtxt` (as written, or intended), the stored table is readable exactly when its columns can be taken. The loaded positions have one entry per row and those columns as x and y. Otherwise the reading's own error is returned. |
| Dao.SaveLoadPositions | transitos_dha1001/fotometria/dao.py:43-45 | A stored catalogue is read back as the same positions in the same order. This holds always under the intended reading, and as written for two or more sources. |
| Dao.SmallCatalogueLost | transitos_dha1001/fotometria/dao.py:43-45 | As written, a stored catalogue of zero or one source reads back as an error. |
| Dao.SavePositions | transitos_dha1001/fotometria/dao.py:70 | `np.savetxt` of `np.array([x, y]).T`: one row per position, row i holding exactly x_i and y_i. |
| Dao.CachedOrCompute | transitos_dha1001/fotometria/dao.py:37-47 | With `recalcular` set, only the image is opened. Without it, a stored table is read and nothing else is opened or changed. The result is then the loaded positions, or an unreadable-table error with the reading's cause. A missing table leads to the image. A missing image, or a computation that yields nothing, is an error that changes nothing. Otherwise the computed positions are returned and stored under the table name, and other files are left alone. |
| Dao.Detections | transitos_dha1001/fotometria/dao.py:55-59 | No ensures of its own; its body is the definition: the finder run with FWHM 3 and threshold 20 times the 3-sigma-clipped standard deviation, on the image minus its clipped median. The finder and the statistics are parameters. |
| Dao.Detect | transitos_dha1001/fotometria/dao.py:59-67 | The kept positions are exactly the finder's detections strictly inside the border, in detection order. |
| Dao.DaoBusqueda | transitos_dha1001/fotometria/dao.py:36-74 | With `recalcular` set, only the image is read. With a stored table and `recalcular` unset, only the table is read, nothing changes, and the result is the table's positions or its read error. With no stored table and `recalcular` unset, the table path and then the image path are tried. When computing, a missing image is `ImageMissing`, and the call succeeds exactly when the image exists and the finder returns a catalogue. A finder returning `None` is an error. Every error leaves the store unchanged. On success the result is the detections inside the border, in order, and that catalogue is stored. |
| Dao.Recenter | transitos_dha1001/fotometria/dao.py:125-127 | There is one recentred position per reference, in reference order, each centred on that reference's own x and y. |
| Dao.DaoRecentrar | transitos_dha1001/fotometria/dao.py:107-135 | Follows the same cache rule as `dao_busqueda`: the accesses of each branch, the result read from a stored table, `ImageMissing` for a missing image, and an unchanged store on every error. When computing, it succeeds exactly when the image exists. It then returns one centroid per reference, in reference order, and stores them. |
| Dao.StoredPositionsReturned | transitos_dha1001/fotometria/dao.py:39-45 | After positions are computed and stored, a call with `recalcular` unset on the same table returns them. It opens only the table, whatever it would otherwise compute. This holds under the intended reading, and as written when at least two positions were stored. |
| Dao.SmallCatalogueNotReused | transitos_dha1001/fotometria/dao.py:39-45 | As written, when zero or one position was computed and stored, the next call with `recalcular` unset opens only the table and fails with an unreadable table. |
| Dao.BusquedaTwice | transitos_dha1001/fotometria/dao.py:39-45 | A second `dao_busqueda` of the same image with `recalcular` unset returns the stored catalogue without opening the image. As written this needs at least two stored sources. |
| Dao.RecentrarTwice | transitos_dha1001/fotometria/dao.py:111-117 | A second `dao_recentrar` of the same image with `recalcular` unset returns the stored positions, whatever the new references. As written this needs at least two stored positions. |
| Dao.RecentrarReadsBusquedaTable | transitos_dha1001/fotometria/dao.py:107-117 | Both routines name the table the same way. So after `dao_busqueda` of an image, `dao_recentrar` of that image with its default `recalcular=False` returns the found catalogue and does not recentre. As written this needs at least two found sources. |
| Dao.RecentrarFailsAfterSmallBusqueda | transitos_dha1001/fotometria/dao.py:115-116 | As written, when `dao_busqueda` keeps at most one source, the following `dao_recentrar` of that image with `recalcular=False` fails reading the table. |
| Dao.RecomputeIgnoresTables | transitos_dha1001/fotometria/dao.py:39-40 | With `recalcular` set, two stores with the same images give the same accesses and the same result, whatever tables they hold. |
| Dao.BusquedaRecomputes | transitos_dha1001/fotometria/dao.py:39-40 | With its default `recalcular=True`, the result of `dao_busqueda` does not depend on any stored table. |
| Dao.RecentrarRecomputes | transitos_dha1001/fotometria/dao.py:111-112 | With `recalcular=True`, the result of `dao_recentrar` does not depend on any stored table. |

## Left out

- FITS reading and writing and the text format of `np.savetxt`/`np.loadtxt`. An image is its flattened pixels, and a table is its rows of numbers. `savetxt`'s default `%.18e` keeps every double, so nothing is lost by not modelling the text.
- `print` and `close`. They are side effects with no bearing on the results.
- Dao.DaoRecentrar and MasterFlat.CrearMasterflat: directories are not modelled. The `Store` has none, so every write succeeds and every directory is assumed to exist. `dao_busqueda` creates the photometry directory (`subprocess.call(["mkdir", ...])`, dao.py:33), but `dao_recentrar` does not. On a fresh tree, its `np.savetxt` at dao.py:131 therefore raises `FileNotFoundError` inside the `except` handler, where the model returns `Ok`. Likewise `fits.writeto` at master_flat.py:88 raises when the reduced-image directory is missing, where the model writes the flat.
- The internals of `sigma_clipped_stats`, `DAOStarFinder` and `centroid_sources`/`centroid_com`. These are library code, so they are parameters. The value check of `box_size` inside `centroid_sources` is not modelled. The finder may return `None`, as `DAOStarFinder` does when it finds nothing; `fuentes['xcentroid']` then raises `TypeError` and no table is written.
- IEEE-754 rounding, NaN and infinity. Pixel values are exact reals.
- MasterFlat.Normalise: a non-empty corrected frame with median exactly zero is an error. numpy would instead fill the frame with infinities and NaNs, which reals cannot represent.
- MasterFlat.Calibrate and MasterFlat.SubtractMaster: frames are flattened, so a master is compared with the raw frame by pixel count only. A master with a different pixel count is an error. A master with the same count but another shape, such as a 3 x 2 master against a 2 x 3 raw flat, or a one-dimensional master of N·M pixels against an N x M frame, is subtracted pixel by pixel, where numpy raises `ValueError` at master_flat.py:67/69. numpy broadcasting between compatible shapes of different sizes is not modelled either.
- `np.float64(h[0].data)` and `np.copy` of the reference columns. Dafny values are immutable, so a caller's positions can never be changed.
- Positions are stored under the table name only. The model does not track which image a table came from, so a table shared by two images (see PosName.SharedCacheFile) is simply read back.
- Images and tables are kept in two separate maps keyed by path. When the photometry directory is the reduced-image directory and the image name has no match for `.fits?` (for example `img.fts`), the table path is the image path itself, and `np.savetxt` overwrites the image. The model keeps both files instead.
- PosTable.LoadColumnsAsWritten: blank lines, which `np.loadtxt` skips, are not modelled. A table row with no values is read as too few columns. `np.savetxt` never writes such a row.
- Dao.StoredPositionsReturned, Dao.BusquedaTwice, Dao.RecentrarTwice and Dao.RecentrarReadsBusquedaTable: as written these promise the cache round trip only for two or more stored positions. Below that the code fails, which Dao.SmallCatalogueNotReused and Dao.RecentrarFailsAfterSmallBusqueda state.
- `transitos_dha1001/__init__.py`. It only re-exports the functions above.

## Findings

| source | as written | input that shows it | evidently intended | confidence | as-written member | corrected member |
|---|---|---|---|---|---|---|
| transitos_dha1001/fotometria/dao.py:43-45 | `np.loadtxt` squeezes its result to one dimension when the table has no row or a single row, so `pos_data[:, 0]` raises `IndexError` instead of returning the stored positions | a `dao_busqueda` run that keeps exactly one source inside the border, followed by any call with `recalcular=False` on the same image | a stored catalogue of any size, including zero or one source, is read back as the same N x 2 table; an empty catalogue needs its own handling, since `ndmin=2` alone gives a 0 x 1 array | not executed; follows from numpy's documented squeeze behaviour | Dao.SmallCatalogueNotReused, Dao.RecentrarFailsAfterSmallBusqueda, PosTable.SmallCatalogueUnreadable | Dao.StoredPositionsReturned, Dao.SaveLoadPositions, PosTable.SaveLoadRoundTrip |

=== FILE: dao.dfy ===
/**
  `dao_busqueda` and `dao_recentrar` (fotometria/dao.py): find or recentre the
  sources of one reduced image and keep their positions in a text table named
  after the image. Unless `recalcular` is set, a stored table is read instead
  of touching the image.

  The astropy and photutils routines are parameters with no assumed
  properties: `stats` stands for `sigma_clipped_stats`, `finder` for a
  `DAOStarFinder` run, and `centroid` for the per-source work of
  `centroid_sources` with `centroid_com`.
 */
module Dao {
  import opened Outcomes
  import opened Storage
  import opened Statistics
  import opened Positions
  import opened PosName
  import opened PosTable

  /** Why a call ends with an exception instead of positions. */
  datatype DaoError =
    | ImageMissing(path: string)                       // `fits.open` on a path that does not exist
    | NoSources(path: string)                          // the finder returned `None`, so `fuentes['xcentroid']` fails
    | TableUnreadable(path: string, cause: TableError) // a stored table whose columns cannot be taken

  /** `mean, median, std` as returned by `sigma_clipped_stats`. */
  datatype Stats = Stats(mean: real, median: real, std: real)

  /** The paths a call tried to read, in order, the files afterwards, and the positions. */
  datatype Run = Run(accessed: seq<string>, store: Store, result: Result<seq<Pos>, DaoError>)

  /** The keyword defaults and hard-coded parameters of the two routines. */
  const BusquedaRecalcula: bool := true
  const RecentrarRecalcula: bool := false
  const ClipSigma: real := 3.0
  const Fwhm: real := 3.0
  const ThresholdFactor: real := 20.0

  /** Where both routines keep the positions of `imagen`. */
  function PosPath(fotDir: string, imagen: string): string
  {
    Path(fotDir, PosFileName(imagen))
  }

  /**
    `np.loadtxt` on the stored table, `pos_data[:, 0]` and `pos_data[:, 1]`,
    then `np.vstack((x, y)).T`, under the given reading of `loadtxt`.
   */
  function LoadPositions(reading: Reading, t: Table): (r: Result<seq<Pos>, TableError>)
    ensures r.Ok? <==> ReadColumns(reading, t).Ok?
    ensures r.Ok? ==> |r.value| == |t|
    ensures r.Ok? ==> Xs(r.value) == ReadColumns(reading, t).value.0 && Ys(r.value) == ReadColumns(reading, t).value.1
    ensures r.Err? ==> r.error == ReadColumns(reading, t).error
  {
    match ReadColumns(reading, t)
    case Err(e) => Err(e)
    case Ok(cols) =>
      ColumnsOfStack(cols.0, cols.1);
      Ok(Stack(cols.0, cols.1))
  }

  /** `np.savetxt` of `np.array([x, y]).T`. */
  function SavePositions(ps: seq<Pos>): (t: Table)
    ensures |t| == |ps|
    ensures forall i | 0 <= i < |ps| :: t[i] == [ps[i].x, ps[i].y]
  {
    Save(Xs(ps), Ys(ps))
  }

  /**
    A stored catalogue is read back as the same positions in the same order:
    always under the intended reading, and as written once it holds at least
    two sources.
   */
  lemma SaveLoadPositions(reading: Reading, ps: seq<Pos>)
    requires reading == Intended || |ps| >= 2
    ensures LoadPositions(reading, SavePositions(ps)) == Ok(ps)
  {
    if reading == Intended {
      SaveLoadRoundTrip(Xs(ps), Ys(ps));
    } else {
      SaveLoadAsWrittenRoundTrip(Xs(ps), Ys(ps));
    }
    StackColumns(ps);
  }

  /** As written, a stored catalogue of zero or one source cannot be read back. */
  lemma SmallCatalogueLost(ps: seq<Pos>)
    requires |ps| <= 1
    ensures LoadPositions(AsWritten, SavePositions(ps)) == Err(NotTwoDimensional)
  {
    SmallCatalogueUnreadable(Xs(ps), Ys(ps));
  }

  /** The branch that does not read a stored table. */
  predicate RecomputesTable(posPath: string, recalcular: bool, store: Store)
  {
    recalcular || posPath !in store.tables
  }

  /**
    The `try`/`except OSError` shared by both routines. With `recalcular`
    unset and a stored table the table is read and returned; otherwise the
    image is opened, `compute` turns its pixels into positions, and these
    are stored, overwriting any earlier table. When `compute` yields nothing
    the call fails before anything is stored.
   */
  function CachedOrCompute(reading: Reading, posPath: string, imgPath: string, recalcular: bool,
                           compute: Image -> Option<seq<Pos>>, store: Store): (r: Run)
    ensures r.store.images == store.images
    ensures r.result.Err? ==> r.store == store
    ensures forall p | p in store.tables && p != posPath :: p in r.store.tables && r.store.tables[p] == store.tables[p]
    ensures r.store.tables.Keys <= store.tables.Keys + {posPath}
    ensures recalcular ==> r.accessed == [imgPath]
    ensures !RecomputesTable(posPath, recalcular, store) ==>
      && r.accessed == [posPath]
      && r.store == store
      && r.result == match LoadPositions(reading, store.tables[posPath])
                     case Ok(ps) => Ok(ps)
                     case Err(e) => Err(TableUnreadable(posPath, e))
    ensures !recalcular && posPath !in store.tables ==> r.accessed == [posPath, imgPath]
    ensures RecomputesTable(posPath, recalcular, store) && imgPath !in store.images ==>
      r.result == Err(ImageMissing(imgPath))
    ensures RecomputesTable(posPath, recalcular, store) && imgPath in store.images && compute(store.images[imgPath]).None? ==>
      r.result == Err(NoSources(imgPath))
    ensures RecomputesTable(posPath, recalcular, store) && imgPath in store.images && compute(store.images[imgPath]).Some? ==>
      && r.result == Ok(compute(store.images[imgPath]).value)
      && r.store.tables == store.tables[posPath := SavePositions(r.result.value)]
  {
    if !recalcular && posPath in store.tables then
      match LoadPositions(reading, store.tables[posPath])
      case Ok(ps) => Run([posPath], store, Ok(ps))
      case Err(e) => Run([posPath], store, Err(TableUnreadable(posPath, e)))
    else
      var probe := if recalcular then [] else [posPath];
      if imgPath !in store.images then Run(probe + [imgPath], store, Err(ImageMissing(imgPath)))
      else
        match compute(store.images[imgPath])
        case None => Run(probe + [imgPath], store, Err(NoSources(imgPath)))
        case Some(ps) => Run(probe + [imgPath], store.(tables := store.tables[posPath := SavePositions(ps)]), Ok(ps))
  }

  // ---------------------------------------------------------------------------
  // dao_busqueda

  /**
    The `DAOStarFinder` catalogue: sources with FWHM 3 whose peak lies twenty
    sky standard deviations above the sky, found in the image minus its
    3-sigma-clipped median. `None` stands for the finder's `None` when it
    finds nothing.
   */
  function Detections(data: Image, stats: (Image, real) -> Stats,
                      finder: (real, real, Image) -> Option<seq<Pos>>): Option<seq<Pos>>
  {
    var st := stats(data, ClipSigma);
    finder(Fwhm, ThresholdFactor * st.std, Apply(data, y => y - st.median))
  }

  /**
    The positions `dao_busqueda` keeps: the border mask built from the
    `xcentroid` and `ycentroid` columns and applied to each of them, stacked
    again. These are exactly the detections strictly inside the border, in
    detection order, each with its own x and y.
   */
  function Detect(data: Image, stats: (Image, real) -> Stats,
                  finder: (real, real, Image) -> Option<seq<Pos>>): (r: Option<seq<Pos>>)
    ensures r.Some? <==> Detections(data, stats, finder).Some?
    ensures r.Some? ==> r.value == KeepInside(Detections(data, stats, finder).value)
    ensures r.Some? ==> forall p :: p in r.value <==> p in Detections(data, stats, finder).value && Inside(p.x, p.y)
    ensures r.Some? ==> forall i | 0 <= i < |r.value| :: Inside(r.value[i].x, r.value[i].y)
  {
    match Detections(data, stats, finder)
    case None => None
    case Some(fuentes) =>
      var (x, y) := BorderFilter(Xs(fuentes), Ys(fuentes));
      BorderFilterAligned(Xs(fuentes), Ys(fuentes));
      StackColumns(fuentes);
      forall p
        ensures p in KeepInside(fuentes) <==> p in fuentes && Inside(p.x, p.y)
      {
        KeepInsideMembers(fuentes, p);
      }
      assert forall i | 0 <= i < |x| :: Stack(x, y)[i] in Stack(x, y);
      Some(Stack(x, y))
  }

  /** `dao_busqueda(imagen, directorio_imagenes_reducidas, directorio_fotometria, recalcular)`. */
  function DaoBusqueda(reading: Reading, imagen: string, redDir: string, fotDir: string, recalcular: bool,
                       stats: (Image, real) -> Stats, finder: (real, real, Image) -> Option<seq<Pos>>,
                       store: Store): (r: Run)
    ensures r.store.images == store.images
    ensures r.result.Err? ==> r.store == store
    ensures recalcular ==> r.accessed == [Path(redDir, imagen)]
    ensures !recalcular && PosPath(fotDir, imagen) !in store.tables ==>
      r.accessed == [PosPath(fotDir, imagen), Path(redDir, imagen)]
    ensures RecomputesTable(PosPath(fotDir, imagen), recalcular, store) && Path(redDir, imagen) !in store.images ==>
      r.result == Err(ImageMissing(Path(redDir, imagen)))
    ensures !RecomputesTable(PosPath(fotDir, imagen), recalcular, store) ==>
      && r.accessed == [PosPath(fotDir, imagen)]
      && r.store == store
      && r.result == match LoadPositions(reading, store.tables[PosPath(fotDir, imagen)])
                     case Ok(ps) => Ok(ps)
                     case Err(e) => Err(TableUnreadable(PosPath(fotDir, imagen), e))
    ensures RecomputesTable(PosPath(fotDir, imagen), recalcular, store) ==>
      (r.result.Ok? <==> Path(redDir, imagen) in store.images &&
                         Detections(store.images[Path(redDir, imagen)], stats, finder).Some?)
    ensures RecomputesTable(PosPath(fotDir, imagen), recalcular, store) && Path(redDir, imagen) in store.images &&
            Detections(store.images[Path(redDir, imagen)], stats, finder).None? ==>
      r.result == Err(NoSources(Path(redDir, imagen))) && r.store == store
    ensures RecomputesTable(PosPath(fotDir, imagen), recalcular, store) && r.result.Ok? ==>
      && r.result.value == KeepInside(Detections(store.images[Path(redDir, imagen)], stats, finder).value)
      && (forall i | 0 <= i < |r.result.value| :: Inside(r.result.value[i].x, r.result.value[i].y))
      && r.store.tables == store.tables[PosPath(fotDir, imagen) := SavePositions(r.result.value)]
  {
    var compute := (data: Image) => Detect(data, stats, finder);
    CachedOrCompute(reading, PosPath(fotDir, imagen), Path(redDir, imagen), recalcular, compute, store)
  }

  // ---------------------------------------------------------------------------
  // dao_recentrar

  /**
    `centroid_sources(data, x_ref, y_ref, box_size=caja_busqueda)` on copies
    of the two reference columns, stacked again: one recentred position per
    reference, in reference order.
   */
  function Recenter(data: Image, refs: seq<Pos>, box: int,
                    centroid: (Image, real, real, int) -> Pos): (r: seq<Pos>)
    ensures |r| == |refs|
    ensures forall i | 0 <= i < |refs| :: r[i] == centroid(data, refs[i].x, refs[i].y, box)
  {
    var xRef, yRef := Xs(refs), Ys(refs);
    var found := seq(|refs|, i requires 0 <= i < |refs| => centroid(data, xRef[i], yRef[i], box));
    StackColumns(found);
    Stack(Xs(found), Ys(found))
  }

  /**
    `dao_recentrar(imagen, posiciones_referencia, directorio_imagenes_reducidas,
    directorio_fotometria, caja_busqueda, recalcular)`.
   */
  function DaoRecentrar(reading: Reading, imagen: string, refs: seq<Pos>, redDir: string, fotDir: string,
                        box: int, recalcular: bool, centroid: (Image, real, real, int) -> Pos,
                        store: Store): (r: Run)
    ensures r.store.images == store.images
    ensures r.result.Err? ==> r.store == store
    ensures recalcular ==> r.accessed == [Path(redDir, imagen)]
    ensures !recalcular && PosPath(fotDir, imagen) !in store.tables ==>
      r.accessed == [PosPath(fotDir, imagen), Path(redDir, imagen)]
    ensures RecomputesTable(PosPath(fotDir, imagen), recalcular, store) && Path(redDir, imagen) !in store.images ==>
      r.result == Err(ImageMissing(Path(redDir, imagen)))
    ensures !RecomputesTable(PosPath(fotDir, imagen), recalcular, store) ==>
      && r.accessed == [PosPath(fotDir, imagen)]
      && r.store == store
      && r.result == match LoadPositions(reading, store.tables[PosPath(fotDir, imagen)])
                     case Ok(ps) => Ok(ps)
                     case Err(e) => Err(TableUnreadable(PosPath(fotDir, imagen), e))
    ensures RecomputesTable(PosPath(fotDir, imagen), recalcular, store) ==>
      (r.result.Ok? <==> Path(redDir, imagen) in store.images)
    ensures RecomputesTable(PosPath(fotDir, imagen), recalcular, store) && r.result.Ok? ==>
      && |r.result.value| == |refs|
      && (forall i | 0 <= i < |refs| ::
            r.result.value[i] == centroid(store.images[Path(redDir, imagen)], refs[i].x, refs[i].y, box))
      && r.store.tables == store.tables[PosPath(fotDir, imagen) := SavePositions(r.result.value)]
  {
    var compute := (data: Image) => Some(Recenter(data, refs, box, centroid));
    CachedOrCompute(reading, PosPath(fotDir, imagen), Path(redDir, imagen), recalcular, compute, store)
  }

  // ---------------------------------------------------------------------------
  // The cache rule

  /**
    Once positions have been computed and stored, a later call with
    `recalcular` unset, for the same image name, returns the same positions
    from the table without opening the image, whatever it would compute.
    As written this needs at least two stored sources.
   */
  lemma StoredPositionsReturned(reading: Reading, posPath: string, imgPath: string, imgPath2: string,
                                recalcular: bool, compute: Image -> Option<seq<Pos>>,
                                compute2: Image -> Option<seq<Pos>>, store: Store)
    requires RecomputesTable(posPath, recalcular, store)
    requires CachedOrCompute(reading, posPath, imgPath, recalcular, compute, store).result.Ok?
    requires reading == Intended || |CachedOrCompute(reading, posPath, imgPath, recalcular, compute, store).result.value| >= 2
    ensures var r1 := CachedOrCompute(reading, posPath, imgPath, recalcular, compute, store);
      CachedOrCompute(reading, posPath, imgPath2, false, compute2, r1.store) == Run([posPath], r1.store, r1.result)
  {
    var r1 := CachedOrCompute(reading, posPath, imgPath, recalcular, compute, store);
    SaveLoadPositions(reading, r1.result.value);
  }

  /**
    As written, a computed catalogue of zero or one source is stored but not
    reused: the next call with `recalcular` unset reads the table and fails
    with the `IndexError` of `pos_data[:, 0]`, without opening the image.
   */
  lemma SmallCatalogueNotReused(posPath: string, imgPath: string, imgPath2: string, recalcular: bool,
                                compute: Image -> Option<seq<Pos>>, compute2: Image -> Option<seq<Pos>>,
                                store: Store)
    requires RecomputesTable(posPath, recalcular, store)
    requires CachedOrCompute(AsWritten, posPath, imgPath, recalcular, compute, store).result.Ok?
    requires |CachedOrCompute(AsWritten, posPath, imgPath, recalcular, compute, store).result.value| <= 1
    ensures var r1 := CachedOrCompute(AsWritten, posPath, imgPath, recalcular, compute, store);
      CachedOrCompute(AsWritten, posPath, imgPath2, false, compute2, r1.store)
        == Run([posPath], r1.store, Err(TableUnreadable(posPath, NotTwoDimensional)))
  {
    var r1 := CachedOrCompute(AsWritten, posPath, imgPath, recalcular, compute, store);
    SmallCatalogueLost(r1.result.value);
  }

  /** A second `dao_busqueda` of the same image, with `recalcular=False`, returns the stored catalogue. */
  lemma BusquedaTwice(reading: Reading, imagen: string, redDir: string, fotDir: string, recalcular: bool,
                      stats: (Image, real) -> Stats, finder: (real, real, Image) -> Option<seq<Pos>>,
                      stats2: (Image, real) -> Stats, finder2: (real, real, Image) -> Option<seq<Pos>>,
                      store: Store)
    requires RecomputesTable(PosPath(fotDir, imagen), recalcular, store)
    requires DaoBusqueda(reading, imagen, redDir, fotDir, recalcular, stats, finder, store).result.Ok?
    requires reading == Intended ||
             |DaoBusqueda(reading, imagen, redDir, fotDir, recalcular, stats, finder, store).result.value| >= 2
    ensures var r1 := DaoBusqueda(reading, imagen, redDir, fotDir, recalcular, stats, finder, store);
      DaoBusqueda(reading, imagen, redDir, fotDir, false, stats2, finder2, r1.store)
        == Run([PosPath(fotDir, imagen)], r1.store, r1.result)
  {
    StoredPositionsReturned(reading, PosPath(fotDir, imagen), Path(redDir, imagen), Path(redDir, imagen), recalcular,
                            (data: Image) => Detect(data, stats, finder),
                            (data: Image) => Detect(data, stats2, finder2), store);
  }

  /** A second `dao_recentrar` of the same image, with `recalcular=False`, returns the stored positions. */
  lemma RecentrarTwice(reading: Reading, imagen: string, refs: seq<Pos>, refs2: seq<Pos>, redDir: string,
                       fotDir: string, box: int, recalcular: bool, centroid: (Image, real, real, int) -> Pos,
                       store: Store)
    requires RecomputesTable(PosPath(fotDir, imagen), recalcular, store)
    requires DaoRecentrar(reading, imagen, refs, redDir, fotDir, box, recalcular, centroid, store).result.Ok?
    requires reading == Intended ||
             |DaoRecentrar(reading, imagen, refs, redDir, fotDir, box, recalcular, centroid, store).result.value| >= 2
    ensures var r1 := DaoRecentrar(reading, imagen, refs, redDir, fotDir, box, recalcular, centroid, store);
      DaoRecentrar(reading, imagen, refs2, redDir, fotDir, box, false, centroid, r1.store)
        == Run([PosPath(fotDir, imagen)], r1.store, r1.result)
  {
    StoredPositionsReturned(reading, PosPath(fotDir, imagen), Path(redDir, imagen), Path(redDir, imagen), recalcular,
                            (data: Image) => Some(Recenter(data, refs, box, centroid)),
                            (data: Image) => Some(Recenter(data, refs2, box, centroid)), store);
  }

  /**
    Both routines name the table after the image in the same way, so after
    `dao_busqueda` of an image, `dao_recentrar` of that same image with its
    default `recalcular=False` returns the found catalogue unchanged: no
    recentring takes place and the image is not opened.
   */
  lemma RecentrarReadsBusquedaTable(reading: Reading, imagen: string, refs: seq<Pos>, redDir: string,
                                    fotDir: string, box: int, recalcular: bool,
                                    stats: (Image, real) -> Stats, finder: (real, real, Image) -> Option<seq<Pos>>,
                                    centroid: (Image, real, real, int) -> Pos, store: Store)
    requires RecomputesTable(PosPath(fotDir, imagen), recalcular, store)
    requires DaoBusqueda(reading, imagen, redDir, fotDir, recalcular, stats, finder, store).result.Ok?
    requires reading == Intended ||
             |DaoBusqueda(reading, imagen, redDir, fotDir, recalcular, stats, finder, store).result.value| >= 2
    ensures var r1 := DaoBusqueda(reading, imagen, redDir, fotDir, recalcular, stats, finder, store);
      DaoRecentrar(reading, imagen, refs, redDir, fotDir, box, RecentrarRecalcula, centroid, r1.store)
        == Run([PosPath(fotDir, imagen)], r1.store, r1.result)
  {
    StoredPositionsReturned(reading, PosPath(fotDir, imagen), Path(redDir, imagen), Path(redDir, imagen), recalcular,
                            (data: Image) => Detect(data, stats, finder),
                            (data: Image) => Some(Recenter(data, refs, box, centroid)), store);
  }

  /**
    As written, when `dao_busqueda` keeps at most one source, the following
    `dao_recentrar` of the same image with `recalcular=False` fails reading
    the table instead of returning that source.
   */
  lemma RecentrarFailsAfterSmallBusqueda(imagen: string, refs: seq<Pos>, redDir: string, fotDir: string,
                                         box: int, recalcular: bool,
                                         stats: (Image, real) -> Stats, finder: (real, real, Image) -> Option<seq<Pos>>,
                                         centroid: (Image, real, real, int) -> Pos, store: Store)
    requires RecomputesTable(PosPath(fotDir, imagen), recalcular, store)
    requires DaoBusqueda(AsWritten, imagen, redDir, fotDir, recalcular, stats, finder, store).result.Ok?
    requires |DaoBusqueda(AsWritten, imagen, redDir, fotDir, recalcular, stats, finder, store).result.value| <= 1
    ensures var r1 := DaoBusqueda(AsWritten, imagen, redDir, fotDir, recalcular, stats, finder, store);
      DaoRecentrar(AsWritten, imagen, refs, redDir, fotDir, box, RecentrarRecalcula, centroid, r1.store)
        == Run([PosPath(fotDir, imagen)], r1.store, Err(TableUnreadable(PosPath(fotDir, imagen), NotTwoDimensional)))
  {
    SmallCatalogueNotReused(PosPath(fotDir, imagen), Path(redDir, imagen), Path(redDir, imagen), recalcular,
                            (data: Image) => Detect(data, stats, finder),
                            (data: Image) => Some(Recenter(data, refs, box, centroid)), store);
  }

  /** Two stores with the same images. */
  predicate SameImages(a: Store, b: Store)
  {
    a.images == b.images
  }

  /**
    With `recalcular` set no stored table is consulted: two stores that hold
    the same images give the same accesses and the same positions, whatever
    tables they hold.
   */
  lemma RecomputeIgnoresTables(reading: Reading, posPath: string, imgPath: string,
                               compute: Image -> Option<seq<Pos>>, store1: Store, store2: Store)
    requires SameImages(store1, store2)
    ensures CachedOrCompute(reading, posPath, imgPath, true, compute, store1).accessed
         == CachedOrCompute(reading, posPath, imgPath, true, compute, store2).accessed
    ensures CachedOrCompute(reading, posPath, imgPath, true, compute, store1).result
         == CachedOrCompute(reading, posPath, imgPath, true, compute, store2).result
  {
  }

  /** `dao_busqueda` with its default `recalcular=True` does not depend on any stored table. */
  lemma BusquedaRecomputes(reading: Reading, imagen: string, redDir: string, fotDir: string,
                           stats: (Image, real) -> Stats, finder: (real, real, Image) -> Option<seq<Pos>>,
                           store1: Store, store2: Store)
    requires SameImages(store1, store2)
    ensures DaoBusqueda(reading, imagen, redDir, fotDir, BusquedaRecalcula, stats, finder, store1).result
         == DaoBusqueda(reading, imagen, redDir, fotDir, BusquedaRecalcula, stats, finder, store2).result
  {
    RecomputeIgnoresTables(reading, PosPath(fotDir, imagen), Path(redDir, imagen),
                           (data: Image) => Detect(data, stats, finder), store1, store2);
  }

  /** `dao_recentrar` with `recalcular=True` does not depend on any stored table. */
  lemma RecentrarRecomputes(reading: Reading, imagen: string, refs: seq<Pos>, redDir: string, fotDir: string,
                            box: int, centroid: (Image, real, real, int) -> Pos, store1: Store, store2: Store)
    requires SameImages(store1, store2)
    ensures DaoRecentrar(reading, imagen, refs, redDir, fotDir, box, true, centroid, store1).result
         == DaoRecentrar(reading, imagen, refs, redDir, fotDir, box, true, centroid, store2).result
  {
    RecomputeIgnoresTables(reading, PosPath(fotDir, imagen), Path(redDir, imagen),
                           (data: Image) => Some(Recenter(data, refs, box, centroid)), store1, store2);
  }
}

=== FILE: master_flat.dfy ===
/**
  `crear_masterflat` (reduccion/master_flat.py): every raw flat has the master
  bias and the master dark subtracted, is divided by its own median, and the
  normalised frames are combined pixel by pixel; every combined pixel that is
  not strictly positive is then replaced by the smallest strictly positive
  pixel. The result is written under the master-flat name unless a stored
  master flat is reused.

  Frames are flattened into `seq<real>`. The sigma-clipped combiner
  (`sigma_clipped_stats(..., axis=0)`, an astropy routine) is a parameter
  with no assumed properties.
 */
module MasterFlat {
  import opened Outcomes
  import opened Storage
  import opened Statistics

  /** Why a master-flat build stops without writing anything. */
  datatype FlatError =
    | Missing(path: string)   // `fits.open` on a path that does not exist
    | ShapeMismatch           // a master does not have the shape of the raw frame
    | ZeroMedian              // a corrected frame whose median is exactly zero
    | NoPositivePixel         // `np.min` over an empty selection

  /** The paths a build tried to open, in order, and what it produced. */
  datatype Step<T> = Step(accessed: seq<string>, result: Result<T, FlatError>)

  /** The file-name arguments of `crear_masterflat`; `None` is Python's `None`. */
  datatype FlatConfig = FlatConfig(
    flatName: string,
    darkName: Option<string>,
    biasName: Option<string>,
    rawDir: string,
    redDir: string)

  function FlatPath(cfg: FlatConfig): string
  {
    Path(cfg.redDir, cfg.flatName)
  }

  function RawPaths(dir: string, names: seq<string>): (r: seq<string>)
    ensures |r| == |names|
  {
    seq(|names|, i requires 0 <= i < |names| => Path(dir, names[i]))
  }

  // ---------------------------------------------------------------------------
  // Bias and dark subtraction

  /** A master can be subtracted from `frame`: it is absent, or it has the same shape. */
  predicate Fits(master: Option<Image>, frame: Image)
  {
    master.None? || |master.value| == |frame|
  }

  /** What a master contributes at pixel `i`: nothing when it is absent. */
  function Level(master: Option<Image>, i: int): real
  {
    match master
    case None => 0.0
    case Some(m) => if 0 <= i < |m| then m[i] else 0.0
  }

  /** `h[0].data -= master[0].data` when the master is configured, nothing otherwise. */
  function SubtractMaster(frame: Image, master: Option<Image>): (r: Result<Image, FlatError>)
    ensures r.Ok? <==> Fits(master, frame)
    ensures r.Err? ==> r.error == ShapeMismatch
    ensures r.Ok? ==> |r.value| == |frame|
    ensures r.Ok? ==> forall i | 0 <= i < |frame| :: r.value[i] == frame[i] - Level(master, i)
  {
    match master
    case None => Ok(frame)
    case Some(m) =>
      if |m| == |frame| then Ok(seq(|frame|, i requires 0 <= i < |frame| => frame[i] - m[i]))
      else Err(ShapeMismatch)
  }

  /**
    The bias- and dark-corrected raw frame: bias first, then dark, each only
    when configured. A missing master means the correction is skipped.
   */
  function Calibrate(raw: Image, bias: Option<Image>, dark: Option<Image>): (r: Result<Image, FlatError>)
    ensures r.Ok? <==> Fits(bias, raw) && Fits(dark, raw)
    ensures r.Err? ==> r.error == ShapeMismatch
    ensures r.Ok? ==> |r.value| == |raw|
    ensures r.Ok? ==> forall i | 0 <= i < |raw| :: r.value[i] == raw[i] - Level(bias, i) - Level(dark, i)
  {
    match SubtractMaster(raw, bias)
    case Err(e) => Err(e)
    case Ok(a) => SubtractMaster(a, dark)
  }

  /** With neither master configured the raw frame passes through unchanged. */
  lemma CalibrateWithoutMasters(raw: Image)
    ensures Calibrate(raw, None, None) == Ok(raw)
  {
  }

  // ---------------------------------------------------------------------------
  // Median normalisation

  /**
    `h[0].data /= np.median(h[0].data)`. An empty frame stays empty; a zero
    median is an error here (see the README: numpy would fill the frame with
    infinities and NaNs, which real numbers cannot represent).
   */
  function Normalise(f: Image): (r: Result<Image, FlatError>)
    ensures r.Ok? ==> |r.value| == |f|
    ensures r.Err? <==> |f| > 0 && Median(f) == 0.0
    ensures r.Err? ==> r.error == ZeroMedian
    ensures r.Ok? && |f| > 0 ==> forall i | 0 <= i < |f| :: r.value[i] == f[i] / Median(f)
  {
    if |f| == 0 then Ok(f)
    else
      var m := Median(f);
      if m == 0.0 then Err(ZeroMedian) else Ok(Apply(f, Over(m)))
  }

  /** A frame with a positive median is normalised to a frame whose median is 1. */
  lemma NormalisedMedianIsOne(f: Image)
    requires |f| > 0
    requires Median(f) > 0.0
    ensures Normalise(f).Ok?
    ensures Median(Normalise(f).value) == 1.0
  {
    var m := Median(f);
    assert Median(Apply(f, Over(m))) == Over(m)(m) by {
      OverIncreasing(m);
      OverKeepsMidpoints(m);
      MedianApply(f, Over(m));
    }
    OverSelf(m);
  }

  /** Multiplying a frame by a positive factor does not change its normalised form. */
  lemma NormaliseScaleInvariant(f: Image, k: real)
    requires k > 0.0
    ensures Normalise(Scale(f, k)) == Normalise(f)
  {
    if |f| > 0 {
      var m := Median(f);
      MedianScale(f, k);
      if m != 0.0 {
        OverTimes(m, k);
        ApplyApply(f, Times(k), Over(Times(k)(m)), Over(m));
      } else {
        assert Times(k)(m) == 0.0;
      }
    }
  }

  /** One raw flat after correction and normalisation, as appended to `all_flats`. */
  function ReduceFrame(raw: Image, bias: Option<Image>, dark: Option<Image>): Result<Image, FlatError>
  {
    match Calibrate(raw, bias, dark)
    case Err(e) => Err(e)
    case Ok(c) => Normalise(c)
  }

  /**
    A raw flat reduces exactly when both configured masters have its shape and
    the corrected frame is empty or has a non-zero median. Pixel i of the
    reduced frame is then the corrected pixel i over that median.
   */
  lemma ReduceFramePixels(raw: Image, bias: Option<Image>, dark: Option<Image>)
    ensures ReduceFrame(raw, bias, dark).Ok? <==>
      Fits(bias, raw) && Fits(dark, raw) && (|raw| == 0 || Median(Calibrate(raw, bias, dark).value) != 0.0)
    ensures !(Fits(bias, raw) && Fits(dark, raw)) ==> ReduceFrame(raw, bias, dark) == Err(ShapeMismatch)
    ensures ReduceFrame(raw, bias, dark).Ok? ==>
      && |ReduceFrame(raw, bias, dark).value| == |raw|
      && forall i | 0 <= i < |raw| :: ReduceFrame(raw, bias, dark).value[i] ==
           (raw[i] - Level(bias, i) - Level(dark, i)) / Median(Calibrate(raw, bias, dark).value)
  {
  }

  /**
    Without bias or dark, two exposures of the same field that differ by an
    illumination factor yield the same normalised flat.
   */
  lemma ReduceFrameScaleInvariant(raw: Image, k: real)
    requires k > 0.0
    ensures ReduceFrame(Scale(raw, k), None, None) == ReduceFrame(raw, None, None)
  {
    NormaliseScaleInvariant(raw, k);
  }

  // ---------------------------------------------------------------------------
  // Replacing the non-positive pixels of the combined flat

  predicate HasPositive(f: Image)
  {
    exists i | 0 <= i < |f| :: f[i] > 0.0
  }

  lemma HasPositiveTail(f: Image)
    requires HasPositive(f)
    requires f[0] <= 0.0
    ensures HasPositive(f[1..])
  {
    var i :| 0 <= i < |f| && f[i] > 0.0;
    assert f[1..][i - 1] == f[i];
  }

  /** `np.min(master_flat[master_flat > 0])`: the smallest strictly positive pixel. */
  function MinPositive(f: Image): (m: real)
    requires HasPositive(f)
    ensures m > 0.0
    ensures m in f
    ensures forall i | 0 <= i < |f| && f[i] > 0.0 :: m <= f[i]
    decreases |f|
  {
    if f[0] <= 0.0 then
      HasPositiveTail(f);
      var m := MinPositive(f[1..]);
      assert forall i | 1 <= i < |f| :: f[i] == f[1..][i - 1];
      m
    else if !HasPositive(f[1..]) then
      assert forall i | 1 <= i < |f| :: f[i] == f[1..][i - 1];
      f[0]
    else
      var m := MinPositive(f[1..]);
      assert forall i | 1 <= i < |f| :: f[i] == f[1..][i - 1];
      if f[0] <= m then f[0] else m
  }

  /**
    `master_flat[master_flat <= 0] = min_val`: afterwards every pixel is
    strictly positive, positive pixels are untouched and every other pixel
    holds the smallest positive value of the frame.
   */
  function Clamp(f: Image): (r: Image)
    requires HasPositive(f)
    ensures |r| == |f|
    ensures forall i | 0 <= i < |r| :: r[i] > 0.0
    ensures forall i | 0 <= i < |f| && f[i] > 0.0 :: r[i] == f[i]
    ensures forall i | 0 <= i < |f| && f[i] <= 0.0 :: r[i] == MinPositive(f)
  {
    var m := MinPositive(f);
    seq(|f|, i requires 0 <= i < |f| => if f[i] > 0.0 then f[i] else m)
  }

  /** Replacing the non-positive pixels a second time changes nothing. */
  lemma ClampIdempotent(f: Image)
    requires HasPositive(f)
    ensures HasPositive(Clamp(f))
    ensures Clamp(Clamp(f)) == Clamp(f)
  {
    var c := Clamp(f);
    assert c[0] > 0.0;
    var cc := Clamp(c);
    forall i | 0 <= i < |c|
      ensures cc[i] == c[i]
    {
    }
  }

  /** The smallest pixel of the clamped flat is the smallest positive pixel of its input. */
  lemma ClampMinimum(f: Image)
    requires HasPositive(f)
    ensures MinPositive(f) in Clamp(f)
    ensures forall i | 0 <= i < |f| :: MinPositive(f) <= Clamp(f)[i]
  {
    var m := MinPositive(f);
    var c := Clamp(f);
    var j :| 0 <= j < |f| && f[j] == m;
    assert c[j] == m;
  }

  // ---------------------------------------------------------------------------
  // The build

  /** Opens the configured master `name`, or nothing when it is `None`. */
  function OpenMaster(images: map<string, Image>, dir: string, name: Option<string>): (r: Step<Option<Image>>)
    ensures name.None? ==> r == Step([], Ok(None))
    ensures name.Some? ==> r.accessed == [Path(dir, name.value)]
    ensures r.result.Ok? && name.Some? ==>
      Path(dir, name.value) in images && r.result.value == Some(images[Path(dir, name.value)])
    ensures r.result.Err? <==> name.Some? && Path(dir, name.value) !in images
    ensures r.result.Err? ==> r.result.error == Missing(Path(dir, name.value))
  {
    match name
    case None => Step([], Ok(None))
    case Some(n) =>
      var p := Path(dir, n);
      if p in images then Step([p], Ok(Some(images[p]))) else Step([p], Err(Missing(p)))
  }

  /** Raw flat `name` exists and can be corrected and normalised. */
  predicate FrameReduces(images: map<string, Image>, rawDir: string, name: string,
                         bias: Option<Image>, dark: Option<Image>)
  {
    Path(rawDir, name) in images && ReduceFrame(images[Path(rawDir, name)], bias, dark).Ok?
  }

  /** The exception a raw flat that does not reduce raises: missing, or failing to reduce. */
  function FrameError(images: map<string, Image>, rawDir: string, name: string,
                      bias: Option<Image>, dark: Option<Image>): FlatError
    requires !FrameReduces(images, rawDir, name, bias, dark)
  {
    var p := Path(rawDir, name);
    if p !in images then Missing(p) else ReduceFrame(images[p], bias, dark).error
  }

  /** Frame `k` is the first of `names` that does not reduce. */
  predicate FirstFailure(images: map<string, Image>, rawDir: string, names: seq<string>,
                         bias: Option<Image>, dark: Option<Image>, k: int)
  {
    && 0 <= k < |names|
    && !FrameReduces(images, rawDir, names[k], bias, dark)
    && forall i | 0 <= i < k :: FrameReduces(images, rawDir, names[i], bias, dark)
  }

  lemma FirstFailureShift(images: map<string, Image>, rawDir: string, names: seq<string>,
                          bias: Option<Image>, dark: Option<Image>, k: int)
    requires |names| > 0 && FrameReduces(images, rawDir, names[0], bias, dark)
    requires FirstFailure(images, rawDir, names[1..], bias, dark, k)
    ensures FirstFailure(images, rawDir, names, bias, dark, k + 1)
    ensures RawPaths(rawDir, names)[..k + 2] == [Path(rawDir, names[0])] + RawPaths(rawDir, names[1..])[..k + 1]
  {
    RawPathsCons(rawDir, names);
    SliceCons(Path(rawDir, names[0]), RawPaths(rawDir, names[1..]), k + 1);
    forall i | 0 <= i < k + 1
      ensures FrameReduces(images, rawDir, names[i], bias, dark)
    {
      if i > 0 {
        assert names[i] == names[1..][i - 1];
      }
    }
    assert names[k + 1] == names[1..][k];
  }

  /**
    What the loop over `imagenes` promises, given the paths it opened and its
    outcome. It succeeds exactly when every raw flat reduces, and then has
    opened every raw flat in order and holds one normalised frame per name,
    in the order of the names. A failure has opened the paths up to and
    including the first raw flat that does not reduce, and raises that
    flat's exception.
   */
  predicate FlatsOutcome(images: map<string, Image>, rawDir: string, names: seq<string>,
                         bias: Option<Image>, dark: Option<Image>,
                         accessed: seq<string>, result: Result<seq<Image>, FlatError>)
  {
    && accessed <= RawPaths(rawDir, names)
    && (result.Ok? <==> forall i | 0 <= i < |names| :: FrameReduces(images, rawDir, names[i], bias, dark))
    && (result.Ok? ==>
          && accessed == RawPaths(rawDir, names)
          && |result.value| == |names|
          && forall i | 0 <= i < |names| ::
               Path(rawDir, names[i]) in images &&
               ReduceFrame(images[Path(rawDir, names[i])], bias, dark) == Ok(result.value[i]))
    && (result.Err? ==> exists k | 0 <= k < |names| ::
          && FirstFailure(images, rawDir, names, bias, dark, k)
          && accessed == RawPaths(rawDir, names)[..k + 1]
          && result.error == FrameError(images, rawDir, names[k], bias, dark))
  }

  /** The loop stops at a first raw flat that does not reduce, having opened only it. */
  lemma HeadFails(images: map<string, Image>, rawDir: string, names: seq<string>,
                  bias: Option<Image>, dark: Option<Image>)
    requires |names| > 0 && !FrameReduces(images, rawDir, names[0], bias, dark)
    ensures FlatsOutcome(images, rawDir, names, bias, dark, [Path(rawDir, names[0])],
                         Err(FrameError(images, rawDir, names[0], bias, dark)))
  {
    assert RawPaths(rawDir, names)[..1] == [Path(rawDir, names[0])];
    assert FirstFailure(images, rawDir, names, bias, dark, 0);
  }

  /** A first raw flat that reduces, followed by a failing rest, fails as the rest does. */
  lemma ConsFails(images: map<string, Image>, rawDir: string, names: seq<string>,
                  bias: Option<Image>, dark: Option<Image>, accessed: seq<string>, e: FlatError)
    requires |names| > 0 && FrameReduces(images, rawDir, names[0], bias, dark)
    requires FlatsOutcome(images, rawDir, names[1..], bias, dark, accessed, Err(e))
    ensures FlatsOutcome(images, rawDir, names, bias, dark, [Path(rawDir, names[0])] + accessed, Err(e))
  {
    RawPathsCons(rawDir, names);
    var k :| && FirstFailure(images, rawDir, names[1..], bias, dark, k)
             && accessed == RawPaths(rawDir, names[1..])[..k + 1]
             && e == FrameError(images, rawDir, names[1..][k], bias, dark);
    FirstFailureShift(images, rawDir, names, bias, dark, k);
    assert !FrameReduces(images, rawDir, names[k + 1], bias, dark);
  }

  /** A first raw flat that reduces, followed by a rest that reduces, puts its frame first. */
  lemma ConsReduces(images: map<string, Image>, rawDir: string, names: seq<string>,
                    bias: Option<Image>, dark: Option<Image>, accessed: seq<string>,
                    frame: Image, frames: seq<Image>)
    requires |names| > 0 && Path(rawDir, names[0]) in images
    requires ReduceFrame(images[Path(rawDir, names[0])], bias, dark) == Ok(frame)
    requires FlatsOutcome(images, rawDir, names[1..], bias, dark, accessed, Ok(frames))
    ensures FlatsOutcome(images, rawDir, names, bias, dark, [Path(rawDir, names[0])] + accessed, Ok([frame] + frames))
  {
    RawPathsCons(rawDir, names);
    AllReduceCons(images, rawDir, names, bias, dark);
    ConsFrames(images, rawDir, names, bias, dark, frame, frames);
  }

  lemma ConsFrames(images: map<string, Image>, rawDir: string, names: seq<string>,
                   bias: Option<Image>, dark: Option<Image>, frame: Image, frames: seq<Image>)
    requires |names| > 0 && Path(rawDir, names[0]) in images
    requires ReduceFrame(images[Path(rawDir, names[0])], bias, dark) == Ok(frame)
    requires |frames| == |names| - 1
    requires forall i | 0 <= i < |names[1..]| ::
      Path(rawDir, names[1..][i]) in images &&
      ReduceFrame(images[Path(rawDir, names[1..][i])], bias, dark) == Ok(frames[i])
    ensures forall i | 0 <= i < |names| ::
      Path(rawDir, names[i]) in images &&
      ReduceFrame(images[Path(rawDir, names[i])], bias, dark) == Ok(([frame] + frames)[i])
  {
    var all := [frame] + frames;
    forall i | 0 <= i < |names|
      ensures Path(rawDir, names[i]) in images
      ensures ReduceFrame(images[Path(rawDir, names[i])], bias, dark) == Ok(all[i])
    {
      if i > 0 {
        assert names[i] == names[1..][i - 1];
        assert all[i] == frames[i - 1];
      }
    }
  }

  /** The loop over `imagenes`: each raw flat in turn is opened, corrected and normalised. */
  function ReduceFlats(images: map<string, Image>, rawDir: string, names: seq<string>,
                       bias: Option<Image>, dark: Option<Image>): (r: Step<seq<Image>>)
    ensures FlatsOutcome(images, rawDir, names, bias, dark, r.accessed, r.result)
    decreases |names|
  {
    if names == [] then Step([], Ok([]))
    else
      var p := Path(rawDir, names[0]);
      if !FrameReduces(images, rawDir, names[0], bias, dark) then
        HeadFails(images, rawDir, names, bias, dark);
        Step([p], Err(FrameError(images, rawDir, names[0], bias, dark)))
      else
        var frame := ReduceFrame(images[p], bias, dark).value;
        var rest := ReduceFlats(images, rawDir, names[1..], bias, dark);
        match rest.result
        case Err(e) =>
          ConsFails(images, rawDir, names, bias, dark, rest.accessed, e);
          Step([p] + rest.accessed, Err(e))
        case Ok(frames) =>
          ConsReduces(images, rawDir, names, bias, dark, rest.accessed, frame, frames);
          Step([p] + rest.accessed, Ok([frame] + frames))
  }

  lemma SliceCons<T>(a: T, b: seq<T>, n: nat)
    requires n <= |b|
    ensures ([a] + b)[..n + 1] == [a] + b[..n]
  {
  }

  lemma RawPathsCons(dir: string, names: seq<string>)
    requires |names| > 0
    ensures RawPaths(dir, names) == [Path(dir, names[0])] + RawPaths(dir, names[1..])
  {
  }

  lemma AllReduceCons(images: map<string, Image>, rawDir: string, names: seq<string>,
                      bias: Option<Image>, dark: Option<Image>)
    requires |names| > 0 && FrameReduces(images, rawDir, names[0], bias, dark)
    ensures (forall i | 0 <= i < |names| :: FrameReduces(images, rawDir, names[i], bias, dark)) <==>
            (forall i | 0 <= i < |names[1..]| :: FrameReduces(images, rawDir, names[1..][i], bias, dark))
  {
    assert forall i | 0 <= i < |names[1..]| :: names[1..][i] == names[i + 1];
  }

  /** A master is usable: it is not configured, or its file exists. */
  predicate MasterPresent(images: map<string, Image>, dir: string, name: Option<string>)
  {
    name.None? || Path(dir, name.value) in images
  }

  /** The pixels of a usable master, or nothing when it is not configured. */
  function MasterOf(images: map<string, Image>, dir: string, name: Option<string>): Option<Image>
    requires MasterPresent(images, dir, name)
  {
    match name
    case None => None
    case Some(n) => Some(images[Path(dir, n)])
  }

  /** The path of the master flat read back as a cached result, when it is consulted. */
  function Probe(cfg: FlatConfig, recalcular: bool): seq<string>
  {
    if recalcular then [] else [FlatPath(cfg)]
  }

  /** The masters a build opens: the bias first, then the dark, each only when configured. */
  function MasterPaths(cfg: FlatConfig): seq<string>
  {
    (if cfg.biasName.Some? then [Path(cfg.redDir, cfg.biasName.value)] else []) +
    (if cfg.darkName.Some? then [Path(cfg.redDir, cfg.darkName.value)] else [])
  }

  /** Every configured master exists and every raw flat reduces against them. */
  predicate InputsReady(names: seq<string>, cfg: FlatConfig, images: map<string, Image>)
  {
    && MasterPresent(images, cfg.redDir, cfg.biasName)
    && MasterPresent(images, cfg.redDir, cfg.darkName)
    && forall i | 0 <= i < |names| ::
         FrameReduces(images, cfg.rawDir, names[i],
                      MasterOf(images, cfg.redDir, cfg.biasName), MasterOf(images, cfg.redDir, cfg.darkName))
  }

  /** `all_flats`: the normalised frames, one per raw flat, in the order of the names. */
  function Frames(names: seq<string>, cfg: FlatConfig, images: map<string, Image>): (r: seq<Image>)
    requires InputsReady(names, cfg, images)
    ensures |r| == |names|
    ensures forall i | 0 <= i < |names| ::
      ReduceFrame(images[Path(cfg.rawDir, names[i])],
                  MasterOf(images, cfg.redDir, cfg.biasName), MasterOf(images, cfg.redDir, cfg.darkName)) == Ok(r[i])
  {
    ReduceFlats(images, cfg.rawDir, names,
                MasterOf(images, cfg.redDir, cfg.biasName), MasterOf(images, cfg.redDir, cfg.darkName)).result.value
  }

  /** A build that does not reuse a stored master flat. */
  predicate RebuildsFlat(cfg: FlatConfig, recalcular: bool, store: Store)
  {
    recalcular || FlatPath(cfg) !in store.images
  }

  lemma PrefixAppend(p: seq<string>, a: seq<string>, b: seq<string>)
    requires a <= b
    ensures p + a <= p + b
  {
    assert (p + b)[..|p + a|] == p + a;
  }

  /**
    Opens the master bias, then the master dark, each only when it is named.
    Both are opened exactly when both usable; a missing bias stops before
    the dark is tried.
   */
  function OpenMasters(images: map<string, Image>, cfg: FlatConfig): (r: Step<(Option<Image>, Option<Image>)>)
    ensures r.accessed <= MasterPaths(cfg)
    ensures r.result.Ok? <==> MasterPresent(images, cfg.redDir, cfg.biasName) && MasterPresent(images, cfg.redDir, cfg.darkName)
    ensures r.result.Ok? ==>
      && r.accessed == MasterPaths(cfg)
      && r.result.value == (MasterOf(images, cfg.redDir, cfg.biasName), MasterOf(images, cfg.redDir, cfg.darkName))
    ensures !MasterPresent(images, cfg.redDir, cfg.biasName) ==>
      && r.accessed == [Path(cfg.redDir, cfg.biasName.value)]
      && r.result == Err(Missing(Path(cfg.redDir, cfg.biasName.value)))
    ensures MasterPresent(images, cfg.redDir, cfg.biasName) && !MasterPresent(images, cfg.redDir, cfg.darkName) ==>
      && r.accessed == MasterPaths(cfg)
      && r.result == Err(Missing(Path(cfg.redDir, cfg.darkName.value)))
  {
    var b := OpenMaster(images, cfg.redDir, cfg.biasName);
    match b.result
    case Err(e) => Step(b.accessed, Err(e))
    case Ok(bias) =>
      var d := OpenMaster(images, cfg.redDir, cfg.darkName);
      match d.result
      case Err(e) => Step(b.accessed + d.accessed, Err(e))
      case Ok(dark) => Step(b.accessed + d.accessed, Ok((bias, dark)))
  }

  /**
    What building the master flat from `images` promises, given the paths it
    read and its outcome. It reads the masters and then the raw flats, in
    order, all of them on success and a prefix of them on failure. It
    succeeds exactly when every input is usable and the combined normalised
    frames have a positive pixel, and then yields their clamped combination.
    A missing bias stops after the bias, and a missing dark after the dark.
    With both masters there, a raw flat that does not reduce stops the build
    right after it is opened, with that flat's own error. A combined flat with
    no positive pixel is an error of its own.
   */
  predicate BuildSpec(names: seq<string>, cfg: FlatConfig, combine: seq<Image> -> Image,
                      images: map<string, Image>, accessed: seq<string>, result: Result<Image, FlatError>)
  {
    && accessed <= MasterPaths(cfg) + RawPaths(cfg.rawDir, names)
    && (result.Ok? ==> accessed == MasterPaths(cfg) + RawPaths(cfg.rawDir, names))
    && (result.Ok? <==> InputsReady(names, cfg, images) && HasPositive(combine(Frames(names, cfg, images))))
    && (result.Ok? ==> result.value == Clamp(combine(Frames(names, cfg, images))))
    && (!MasterPresent(images, cfg.redDir, cfg.biasName) ==>
          && accessed == [Path(cfg.redDir, cfg.biasName.value)]
          && result == Err(Missing(Path(cfg.redDir, cfg.biasName.value))))
    && (MasterPresent(images, cfg.redDir, cfg.biasName) && !MasterPresent(images, cfg.redDir, cfg.darkName) ==>
          && accessed == MasterPaths(cfg)
          && result == Err(Missing(Path(cfg.redDir, cfg.darkName.value))))
    && (MasterPresent(images, cfg.redDir, cfg.biasName) && MasterPresent(images, cfg.redDir, cfg.darkName) &&
        !InputsReady(names, cfg, images) ==>
          exists k | 0 <= k < |names| ::
            && FirstFailure(images, cfg.rawDir, names, MasterOf(images, cfg.redDir, cfg.biasName),
                            MasterOf(images, cfg.redDir, cfg.darkName), k)
            && accessed == MasterPaths(cfg) + RawPaths(cfg.rawDir, names)[..k + 1]
            && result == Err(FrameError(images, cfg.rawDir, names[k], MasterOf(images, cfg.redDir, cfg.biasName),
                                        MasterOf(images, cfg.redDir, cfg.darkName))))
    && (InputsReady(names, cfg, images) && !HasPositive(combine(Frames(names, cfg, images))) ==>
          && accessed == MasterPaths(cfg) + RawPaths(cfg.rawDir, names)
          && result == Err(NoPositivePixel))
  }

  /**
    The computing part of `crear_masterflat`: the masters, then every raw
    flat, then the combination and the replacement of non-positive pixels.
   */
  function BuildFlat(names: seq<string>, cfg: FlatConfig, combine: seq<Image> -> Image,
                     images: map<string, Image>): (r: Step<Image>)
    ensures BuildSpec(names, cfg, combine, images, r.accessed, r.result)
  {
    var m := OpenMasters(images, cfg);
    match m.result
    case Err(e) =>
      assert m.accessed <= MasterPaths(cfg) + RawPaths(cfg.rawDir, names);
      Step(m.accessed, Err(e))
    case Ok(masters) =>
      var flats := ReduceFlats(images, cfg.rawDir, names, masters.0, masters.1);
      PrefixAppend(m.accessed, flats.accessed, RawPaths(cfg.rawDir, names));
      match flats.result
      case Err(e) =>
        assert exists k | 0 <= k < |names| ::
          && FirstFailure(images, cfg.rawDir, names, masters.0, masters.1, k)
          && m.accessed + flats.accessed == MasterPaths(cfg) + RawPaths(cfg.rawDir, names)[..k + 1]
          && e == FrameError(images, cfg.rawDir, names[k], masters.0, masters.1)
        by {
          var k :| && 0 <= k < |names|
                   && FirstFailure(images, cfg.rawDir, names, masters.0, masters.1, k)
                   && flats.accessed == RawPaths(cfg.rawDir, names)[..k + 1]
                   && e == FrameError(images, cfg.rawDir, names[k], masters.0, masters.1);
        }
        Step(m.accessed + flats.accessed, Err(e))
      case Ok(frames) =>
        assert frames == Frames(names, cfg, images);
        var combined := combine(frames);
        if !HasPositive(combined) then Step(m.accessed + flats.accessed, Err(NoPositivePixel))
        else Step(m.accessed + flats.accessed, Ok(Clamp(combined)))
  }

  /** The store after `fits.writeto(..., overwrite=True)` puts `flat` at `p`. */
  function WriteImage(store: Store, p: string, flat: Image): (r: Store)
    ensures r.tables == store.tables
    ensures r.images.Keys == store.images.Keys + {p}
    ensures p in r.images && r.images[p] == flat
    ensures forall q | q in store.images && q != p :: r.images[q] == store.images[q]
  {
    store.(images := store.images[p := flat])
  }

  /** The master flat a finished call has written, or its error. */
  function WrittenFlat(cfg: FlatConfig, result: Result<Store, FlatError>): Result<Image, FlatError>
    requires result.Ok? ==> FlatPath(cfg) in result.value.images
  {
    match result
    case Ok(st) => Ok(st.images[FlatPath(cfg)])
    case Err(e) => Err(e)
  }

  /**
    `crear_masterflat`. Unless `recalcular` is set, an existing master flat is
    reused and nothing else is accessed. Otherwise, after looking for the
    master flat when `recalcular` is unset, it behaves as a build (see
    `BuildSpec`) and writes the built flat, overwriting any earlier one;
    nothing else changes.
   */
  function CrearMasterflat(names: seq<string>, cfg: FlatConfig, recalcular: bool,
                           combine: seq<Image> -> Image, store: Store): (r: Step<Store>)
    ensures !recalcular && FlatPath(cfg) in store.images ==> r == Step([FlatPath(cfg)], Ok(store))
    ensures r.result.Ok? ==> r.result.value.tables == store.tables
    ensures r.result.Ok? ==> r.result.value.images.Keys == store.images.Keys + {FlatPath(cfg)}
    ensures r.result.Ok? ==> forall p | p in store.images && p != FlatPath(cfg) ::
      r.result.value.images[p] == store.images[p]
    ensures r.result.Ok? && RebuildsFlat(cfg, recalcular, store) ==>
      forall i | 0 <= i < |r.result.value.images[FlatPath(cfg)]| :: r.result.value.images[FlatPath(cfg)][i] > 0.0
    ensures RebuildsFlat(cfg, recalcular, store) ==>
      && Probe(cfg, recalcular) <= r.accessed
      && BuildSpec(names, cfg, combine, store.images, r.accessed[|Probe(cfg, recalcular)|..],
                   WrittenFlat(cfg, r.result))
  {
    var flatPath := FlatPath(cfg);
    if !recalcular && flatPath in store.images then Step([flatPath], Ok(store))
    else
      var probe := Probe(cfg, recalcular);
      var built := BuildFlat(names, cfg, combine, store.images);
      assert (probe + built.accessed)[|probe|..] == built.accessed;
      match built.result
      case Err(e) => Step(probe + built.accessed, Err(e))
      case Ok(flat) => Step(probe + built.accessed, Ok(WriteImage(store, flatPath, flat)))
  }

  // ---------------------------------------------------------------------------
  // The `recalcular` cache rule

  /** The build reads the master flat only as a cached result, never as an input. */
  predicate InputsAvoidFlat(names: seq<string>, cfg: FlatConfig)
  {
    && cfg.biasName != Some(cfg.flatName)
    && cfg.darkName != Some(cfg.flatName)
    && forall i | 0 <= i < |names| :: Path(cfg.rawDir, names[i]) != FlatPath(cfg)
  }

  /** Two stores that agree on every path but `p`. */
  ghost predicate AgreeExcept(a: map<string, Image>, b: map<string, Image>, p: string)
  {
    && (forall q | q != p :: q in a <==> q in b)
    && (forall q | q != p && q in a :: a[q] == b[q])
  }

  lemma {:induction false} ReduceFlatsAgree(a: map<string, Image>, b: map<string, Image>, p: string,
                                            rawDir: string, names: seq<string>,
                                            bias: Option<Image>, dark: Option<Image>)
    requires AgreeExcept(a, b, p)
    requires forall i | 0 <= i < |names| :: Path(rawDir, names[i]) != p
    ensures ReduceFlats(a, rawDir, names, bias, dark) == ReduceFlats(b, rawDir, names, bias, dark)
    decreases |names|
  {
    if names != [] {
      ReduceFlatsAgree(a, b, p, rawDir, names[1..], bias, dark);
    }
  }

  /**
    With `recalcular` set the stored master flat is never consulted: two
    stores that differ only in the master flat give the same accesses, the
    same error or the same new master flat.
   */
  lemma RecomputeIgnoresStoredFlat(names: seq<string>, cfg: FlatConfig, combine: seq<Image> -> Image,
                                   store1: Store, store2: Store)
    requires InputsAvoidFlat(names, cfg)
    requires AgreeExcept(store1.images, store2.images, FlatPath(cfg))
    ensures CrearMasterflat(names, cfg, true, combine, store1).accessed ==
            CrearMasterflat(names, cfg, true, combine, store2).accessed
    ensures CrearMasterflat(names, cfg, true, combine, store1).result.Ok? <==>
            CrearMasterflat(names, cfg, true, combine, store2).result.Ok?
    ensures CrearMasterflat(names, cfg, true, combine, store1).result.Err? ==>
            CrearMasterflat(names, cfg, true, combine, store1).result.error ==
            CrearMasterflat(names, cfg, true, combine, store2).result.error
    ensures CrearMasterflat(names, cfg, true, combine, store1).result.Ok? ==>
            CrearMasterflat(names, cfg, true, combine, store1).result.value.images[FlatPath(cfg)] ==
            CrearMasterflat(names, cfg, true, combine, store2).result.value.images[FlatPath(cfg)]
  {
    BuildFlatAgree(names, cfg, combine, store1.images, store2.images);
  }

  /** Building the master flat does not read the path the master flat is written to. */
  lemma BuildFlatAgree(names: seq<string>, cfg: FlatConfig, combine: seq<Image> -> Image,
                       a: map<string, Image>, b: map<string, Image>)
    requires InputsAvoidFlat(names, cfg)
    requires AgreeExcept(a, b, FlatPath(cfg))
    ensures BuildFlat(names, cfg, combine, a) == BuildFlat(names, cfg, combine, b)
  {
    OpenMastersAgree(names, cfg, a, b);
    var m := OpenMasters(a, cfg);
    if m.result.Ok? {
      ReduceFlatsAgree(a, b, FlatPath(cfg), cfg.rawDir, names, m.result.value.0, m.result.value.1);
    }
  }

  /** Opening the masters does not read the path the master flat is written to. */
  lemma OpenMastersAgree(names: seq<string>, cfg: FlatConfig, a: map<string, Image>, b: map<string, Image>)
    requires InputsAvoidFlat(names, cfg)
    requires AgreeExcept(a, b, FlatPath(cfg))
    ensures OpenMasters(a, cfg) == OpenMasters(b, cfg)
  {
    var flatPath := FlatPath(cfg);
    if cfg.biasName.Some? && Path(cfg.redDir, cfg.biasName.value) == flatPath {
      PathInjective(cfg.redDir, cfg.biasName.value, cfg.flatName);
    }
    if cfg.darkName.Some? && Path(cfg.redDir, cfg.darkName.value) == flatPath {
      PathInjective(cfg.redDir, cfg.darkName.value, cfg.flatName);
    }
  }


  /**
    A second build without `recalcular` after a successful one opens only the
    master flat and changes nothing: the work is done once.
   */
  lemma SecondBuildReuses(names: seq<string>, cfg: FlatConfig, recalcular: bool,
                          combine: seq<Image> -> Image, store: Store,
                          names2: seq<string>, combine2: seq<Image> -> Image)
    requires CrearMasterflat(names, cfg, recalcular, combine, store).result.Ok?
    ensures var built := CrearMasterflat(names, cfg, recalcular, combine, store).result.value;
            CrearMasterflat(names2, cfg, false, combine2, built) == Step([FlatPath(cfg)], Ok(built))
  {
  }
}

=== FILE: outcomes.dfy ===
/** Failure-carrying values shared by every module of the model. */
module Outcomes {

  /** An optional value: a calibration master that may be configured away. */
  datatype Option<+T> = None | Some(value: T)

  /** Either a value or the error that stopped the computation. */
  datatype Result<+T, +E> = Ok(value: T) | Err(error: E)
}

=== FILE: pos_name.dfy ===
/**
  The name of the cached position table, `re.sub(".fits?", ".pos.dat", imagen)`
  in `dao_busqueda` and `dao_recentrar` (fotometria/dao.py).

  The pattern is neither escaped nor anchored: `.` is any character except a
  newline, followed by `fit` and an optional `s` taken whenever it is there.
  `re.sub` scans from the left, replaces every match, and resumes after the
  end of each match, so matches never overlap.
 */
module PosName {

  const Replacement: string := ".pos.dat"

  /** "fit" occurs in `s` at index `i`. */
  predicate FitAt(s: string, i: int)
  {
    0 <= i && i + 3 <= |s| && s[i] == 'f' && s[i + 1] == 'i' && s[i + 2] == 't'
  }

  /** The pattern matches at the start of `s`: any character but a newline, then "fit". */
  predicate MatchesAtStart(s: string)
  {
    |s| >= 4 && s[0] != '\n' && FitAt(s, 1)
  }

  /** The length of the match at the start of `s`: five when the greedy `s?` finds an `s`. */
  function MatchLength(s: string): (n: nat)
    requires MatchesAtStart(s)
    ensures 4 <= n <= 5 && n <= |s|
  {
    if |s| >= 5 && s[4] == 's' then 5 else 4
  }

  /** `re.sub(".fits?", ".pos.dat", s)`. */
  function Substitute(s: string): string
    decreases |s|
  {
    if |s| == 0 then s
    else if MatchesAtStart(s) then Replacement + Substitute(s[MatchLength(s)..])
    else [s[0]] + Substitute(s[1..])
  }

  /** The name both `dao_busqueda` and `dao_recentrar` give the position table of `imagen`. */
  function PosFileName(imagen: string): string
  {
    Substitute(imagen)
  }

  /** `s` has no "fit" anywhere in it. */
  predicate NoFit(s: string)
  {
    forall i | 0 <= i < |s| :: !FitAt(s, i)
  }

  lemma NoFitTail(s: string)
    requires NoFit(s)
    requires |s| > 0
    ensures NoFit(s[1..])
  {
    forall i | 0 <= i < |s[1..]|
      ensures !FitAt(s[1..], i)
    {
      assert !FitAt(s, i + 1);
    }
  }

  /** A string with no "fit" in it is left unchanged. */
  lemma {:induction false} SubstituteNoMatch(s: string)
    requires NoFit(s)
    ensures Substitute(s) == s
    decreases |s|
  {
    if |s| > 0 {
      assert !FitAt(s, 1);
      NoFitTail(s);
      SubstituteNoMatch(s[1..]);
    }
  }

  /** `.fits` or `.fit` on its own is one whole match. */
  lemma ExtensionSubstituted(ext: string)
    requires ext == ".fits" || ext == ".fit"
    ensures Substitute(ext) == Replacement
  {
    assert MatchesAtStart(ext) && MatchLength(ext) == |ext|;
    assert ext[|ext|..] == "";
    assert Substitute(ext) == Replacement + Substitute("");
  }

  /**
    When no match starts inside the stem, the position table of `stem.fits`
    or `stem.fit` is `stem.pos.dat`. This covers a stem whose only "fit" is
    at its start, such as `fitting.fits`, since the wildcard needs a
    character before the "fit".
   */
  lemma PosFileNameOfFitsImage(stem: string, ext: string)
    requires ext == ".fits" || ext == ".fit"
    requires forall i | 0 <= i < |stem| :: !MatchesAtStart((stem + ext)[i..])
    ensures PosFileName(stem + ext) == stem + Replacement
  {
    SubstitutePrefix(stem, ext);
    ExtensionSubstituted(ext);
  }

  /** A stem with no "fit" in it has no match starting inside it. */
  lemma NoFitNoMatch(stem: string, ext: string)
    requires ext == ".fits" || ext == ".fit"
    requires NoFit(stem)
    ensures forall i | 0 <= i < |stem| :: !MatchesAtStart((stem + ext)[i..])
  {
    var s := stem + ext;
    forall i | 0 <= i < |stem|
      ensures !MatchesAtStart(s[i..])
    {
      if i + 4 <= |stem| {
        assert !FitAt(stem, i + 1);
      } else {
        assert s[|stem|] == '.';
      }
    }
  }

  /** `fitting.fits` is named `fitting.pos.dat`: the leading "fit" has no character before it. */
  lemma LeadingFitKept()
    ensures PosFileName("fitting.fits") == "fitting.pos.dat"
  {
    var stem, ext := "fitting", ".fits";
    var s := stem + ext;
    assert s == "fitting.fits";
    forall i | 0 <= i < |stem|
      ensures !MatchesAtStart(s[i..])
    {
      assert s[i..][1] == s[i + 1] != 'f';
    }
    PosFileNameOfFitsImage(stem, ext);
    assert stem + Replacement == "fitting.pos.dat";
  }

  /** Characters where no match starts are copied as they are. */
  lemma {:induction false} SubstitutePrefix(stem: string, rest: string)
    requires forall i | 0 <= i < |stem| :: !MatchesAtStart((stem + rest)[i..])
    ensures Substitute(stem + rest) == stem + Substitute(rest)
    decreases |stem|
  {
    if |stem| > 0 {
      var s := stem + rest;
      assert s[0..] == s;
      assert s[1..] == stem[1..] + rest;
      forall i | 0 <= i < |stem[1..]|
        ensures !MatchesAtStart((stem[1..] + rest)[i..])
      {
        assert (stem[1..] + rest)[i..] == s[i + 1..];
      }
      SubstitutePrefix(stem[1..], rest);
      assert Substitute(s) == [s[0]] + Substitute(s[1..]);
      assert stem == [stem[0]] + stem[1..];
    } else {
      assert stem + rest == rest;
    }
  }

  /** Any character but a newline followed by "fit" and no "s" is replaced. */
  lemma SubstituteReplacesFit(c: char, rest: string)
    requires c != '\n'
    requires rest == [] || rest[0] != 's'
    ensures Substitute([c] + "fit" + rest) == Replacement + Substitute(rest)
  {
    var s := [c] + "fit" + rest;
    assert MatchesAtStart(s) && MatchLength(s) == 4;
    assert s[4..] == rest;
  }

  /** No match starts inside a stem without "fit" when the stem is followed by one character and "fit". */
  lemma NoMatchInStem(stem: string, c: char, tail: string, i: int)
    requires NoFit(stem + [c])
    requires 0 <= i < |stem|
    ensures !MatchesAtStart((stem + ([c] + "fit" + tail))[i..])
  {
    var head, s := stem + [c], stem + ([c] + "fit" + tail);
    assert s[|stem| + 1] == 'f' && s[|stem| + 2] == 'i';
    if i + 3 <= |stem| {
      assert !FitAt(head, i + 1);
      assert s[i + 1] == head[i + 1] && s[i + 2] == head[i + 2] && s[i + 3] == head[i + 3];
    }
  }

  /**
    The unescaped `.` matches any character, so "fit" inside the stem is
    replaced together with the character before it: `profit.fits` becomes
    `pr.pos.dat.pos.dat` (stem "pr", character 'o').
   */
  lemma WildcardReplacesAnyCharacter(stem: string, c: char, ext: string)
    requires ext == ".fits" || ext == ".fit"
    requires c != '\n'
    requires NoFit(stem + [c])
    ensures PosFileName(stem + ([c] + "fit" + ext)) == stem + Replacement + Replacement
  {
    var rest := [c] + "fit" + ext;
    forall i | 0 <= i < |stem|
      ensures !MatchesAtStart((stem + rest)[i..])
    {
      NoMatchInStem(stem, c, ext, i);
    }
    SubstitutePrefix(stem, rest);
    assert Substitute(rest) == Replacement + Replacement by {
      SubstituteReplacesFit(c, ext);
      ExtensionSubstituted(ext);
    }
  }

  /** Because of the wildcard, two different images can share one position table. */
  lemma SharedCacheFile()
    ensures "afit.fits" != "bfit.fits"
    ensures PosFileName("afit.fits") == PosFileName("bfit.fits")
  {
    var a, b := "afit.fits", "bfit.fits";
    assert MatchesAtStart(a) && MatchLength(a) == 4 && a[4..] == ".fits";
    assert MatchesAtStart(b) && MatchLength(b) == 4 && b[4..] == ".fits";
  }
}

=== FILE: pos_table.dfy ===
/**
  The position table on disk: `np.savetxt(fname, np.array([x, y]).T)` writes
  one line "x y" per source, and `pos_data = np.loadtxt(fname)` followed by
  `pos_data[:, 0]` and `pos_data[:, 1]` reads the two columns back
  (fotometria/dao.py). Number formatting is left out: `savetxt`'s default
  `%.18e` keeps every double, so a row is modelled as the values themselves.
 */
module PosTable {
  import opened Outcomes
  import opened Storage

  /** Why the columns of a stored table cannot be taken. */
  datatype TableError =
    | RaggedRows        // rows with different numbers of values (`ValueError` in `loadtxt`)
    | TooFewColumns     // rows with fewer than two values
    | NotTwoDimensional // `loadtxt` returned a 1-D array, so `[:, 0]` raises `IndexError`

  /** Every row of `t` holds exactly `w` values. */
  predicate Rectangular(t: Table, w: nat)
  {
    forall i | 0 <= i < |t| :: |t[i]| == w
  }

  /** Column `c` of a table whose rows all have more than `c` values. */
  function Column(t: Table, c: nat): (r: seq<real>)
    requires forall i | 0 <= i < |t| :: |t[i]| > c
    ensures |r| == |t|
  {
    seq(|t|, i requires 0 <= i < |t| => t[i][c])
  }

  /** `np.array([x, y]).T` as written by `np.savetxt`: row i is x[i] followed by y[i]. */
  function Save(xs: seq<real>, ys: seq<real>): (t: Table)
    requires |xs| == |ys|
    ensures |t| == |xs|
    ensures Rectangular(t, 2)
  {
    seq(|xs|, i requires 0 <= i < |xs| => [xs[i], ys[i]])
  }

  /**
    The columns as the code reads them. `np.loadtxt` without `ndmin` squeezes
    its result: an empty file gives an empty 1-D array, a single line gives a
    1-D array of that line's values, and a single column gives a 1-D array of
    that column. In all three cases `pos_data[:, 0]` raises `IndexError`.
   */
  function LoadColumnsAsWritten(t: Table): (r: Result<(seq<real>, seq<real>), TableError>)
    ensures r.Ok? ==> |r.value.0| == |r.value.1| == |t| >= 2
  {
    if |t| == 0 then Err(NotTwoDimensional)
    else if !Rectangular(t, |t[0]|) then Err(RaggedRows)
    else if |t[0]| == 0 then Err(TooFewColumns)
    else if |t| == 1 || |t[0]| == 1 then Err(NotTwoDimensional)
    else Ok((Column(t, 0), Column(t, 1)))
  }

  /**
    The columns as the code evidently means to read them: the N x 2 table is
    read back as N rows for every N, including none and one.
   */
  function LoadColumns(t: Table): (r: Result<(seq<real>, seq<real>), TableError>)
    ensures r.Ok? ==> |r.value.0| == |r.value.1| == |t|
  {
    if |t| == 0 then Ok(([], []))
    else if !Rectangular(t, |t[0]|) then Err(RaggedRows)
    else if |t[0]| < 2 then Err(TooFewColumns)
    else Ok((Column(t, 0), Column(t, 1)))
  }

  /** Which of the two readings of a stored table a caller follows. */
  datatype Reading = AsWritten | Intended

  /** The columns of `t` under the given reading. */
  function ReadColumns(reading: Reading, t: Table): (r: Result<(seq<real>, seq<real>), TableError>)
    ensures r.Ok? ==> |r.value.0| == |r.value.1| == |t|
  {
    match reading
    case AsWritten => LoadColumnsAsWritten(t)
    case Intended => LoadColumns(t)
  }

  /** Saving two columns and loading them back gives the same columns, in the same order. */
  lemma SaveLoadRoundTrip(xs: seq<real>, ys: seq<real>)
    requires |xs| == |ys|
    ensures LoadColumns(Save(xs, ys)) == Ok((xs, ys))
  {
    var t := Save(xs, ys);
    if |t| > 0 {
      assert Rectangular(t, |t[0]|);
      assert Column(t, 0) == xs;
      assert Column(t, 1) == ys;
    }
  }

  /** As written, the round trip holds for tables of at least two sources. */
  lemma SaveLoadAsWrittenRoundTrip(xs: seq<real>, ys: seq<real>)
    requires |xs| == |ys| >= 2
    ensures LoadColumnsAsWritten(Save(xs, ys)) == Ok((xs, ys))
  {
    var t := Save(xs, ys);
    assert Rectangular(t, |t[0]|);
    assert Column(t, 0) == xs;
    assert Column(t, 1) == ys;
  }

  /** As written, a saved catalogue of zero or one source cannot be read back. */
  lemma SmallCatalogueUnreadable(xs: seq<real>, ys: seq<real>)
    requires |xs| == |ys| <= 1
    ensures LoadColumnsAsWritten(Save(xs, ys)) == Err(NotTwoDimensional)
  {
    var t := Save(xs, ys);
    if |t| == 1 {
      assert Rectangular(t, |t[0]|);
    }
  }

  /** The intended reading agrees with the code on every table the code can read. */
  lemma LoadColumnsExtendsAsWritten(t: Table)
    requires LoadColumnsAsWritten(t).Ok?
    ensures LoadColumns(t) == LoadColumnsAsWritten(t)
  {
  }
}

=== FILE: positions.dfy ===
/**
  Source positions and the border cut of `dao_busqueda` (fotometria/dao.py):
  detections come out of the star finder as two parallel columns, x and y,
  and one boolean mask built from both is applied to each column.
 */
module Positions {

  /** A source position in detector pixels. */
  datatype Pos = Pos(x: real, y: real)

  /** The hard-coded limits of the border cut; both are exclusive. */
  const Low: real := 150.0
  const High: real := 1850.0

  /** `(x > 150) & (x < 1850) & (y > 150) & (y < 1850)` for one source. */
  predicate Inside(x: real, y: real)
  {
    Low < x < High && Low < y < High
  }

  // ---------------------------------------------------------------------------
  // Columns and rows

  /** Column 0 of a position table. */
  function Xs(ps: seq<Pos>): (r: seq<real>)
    ensures |r| == |ps|
    ensures forall i | 0 <= i < |ps| :: r[i] == ps[i].x
  {
    seq(|ps|, i requires 0 <= i < |ps| => ps[i].x)
  }

  /** Column 1 of a position table. */
  function Ys(ps: seq<Pos>): (r: seq<real>)
    ensures |r| == |ps|
    ensures forall i | 0 <= i < |ps| :: r[i] == ps[i].y
  {
    seq(|ps|, i requires 0 <= i < |ps| => ps[i].y)
  }

  /** `np.vstack((x, y)).T`: the N x 2 table whose row i is (x[i], y[i]). */
  function Stack(xs: seq<real>, ys: seq<real>): (r: seq<Pos>)
    requires |xs| == |ys|
    ensures |r| == |xs|
  {
    seq(|xs|, i requires 0 <= i < |xs| => Pos(xs[i], ys[i]))
  }

  /** Splitting a table into its columns and stacking them again gives the table back. */
  lemma StackColumns(ps: seq<Pos>)
    ensures Stack(Xs(ps), Ys(ps)) == ps
  {
  }

  /** Stacking two columns and splitting the table gives the columns back. */
  lemma ColumnsOfStack(xs: seq<real>, ys: seq<real>)
    requires |xs| == |ys|
    ensures Xs(Stack(xs, ys)) == xs && Ys(Stack(xs, ys)) == ys
  {
  }

  // ---------------------------------------------------------------------------
  // The mask, as the code applies it

  /** `cond`: one flag per detection. */
  function Mask(xs: seq<real>, ys: seq<real>): (m: seq<bool>)
    requires |xs| == |ys|
    ensures |m| == |xs|
  {
    seq(|xs|, i requires 0 <= i < |xs| => Inside(xs[i], ys[i]))
  }

  /** `a[cond]`: the elements whose flag is set, in their original order. */
  function Select<T>(a: seq<T>, m: seq<bool>): (r: seq<T>)
    requires |a| == |m|
    ensures |r| <= |a|
  {
    if a == [] then []
    else if m[0] then [a[0]] + Select(a[1..], m[1..])
    else Select(a[1..], m[1..])
  }

  /**
    `x = x[cond]; y = y[cond]`. The two columns keep the same length, so the
    result is again a table.
   */
  function BorderFilter(xs: seq<real>, ys: seq<real>): (r: (seq<real>, seq<real>))
    requires |xs| == |ys|
    ensures |r.0| == |r.1| <= |xs|
  {
    var cond := Mask(xs, ys);
    SelectSameLength(xs, ys, cond);
    (Select(xs, cond), Select(ys, cond))
  }

  lemma {:induction false} SelectSameLength<A, B>(a: seq<A>, b: seq<B>, m: seq<bool>)
    requires |a| == |b| == |m|
    ensures |Select(a, m)| == |Select(b, m)|
  {
    if a != [] {
      SelectSameLength(a[1..], b[1..], m[1..]);
    }
  }

  // ---------------------------------------------------------------------------
  // The same cut, stated on whole positions

  /** The positions of `ps` inside the border, in their original order. */
  function KeepInside(ps: seq<Pos>): (r: seq<Pos>)
    ensures |r| <= |ps|
  {
    if ps == [] then []
    else if Inside(ps[0].x, ps[0].y) then [ps[0]] + KeepInside(ps[1..])
    else KeepInside(ps[1..])
  }

  lemma {:induction false} StackSelect(xs: seq<real>, ys: seq<real>, m: seq<bool>)
    requires |xs| == |ys| == |m|
    ensures |Select(xs, m)| == |Select(ys, m)|
    ensures Stack(Select(xs, m), Select(ys, m)) == Select(Stack(xs, ys), m)
  {
    SelectSameLength(xs, ys, m);
    if xs != [] {
      StackSelect(xs[1..], ys[1..], m[1..]);
      assert Stack(xs, ys)[1..] == Stack(xs[1..], ys[1..]);
      if m[0] {
        assert Stack(Select(xs, m), Select(ys, m))
            == [Pos(xs[0], ys[0])] + Stack(Select(xs[1..], m[1..]), Select(ys[1..], m[1..]));
      }
    }
  }

  lemma {:induction false} SelectMaskIsKeepInside(ps: seq<Pos>)
    ensures Select(ps, Mask(Xs(ps), Ys(ps))) == KeepInside(ps)
  {
    if ps != [] {
      assert Xs(ps)[1..] == Xs(ps[1..]);
      assert Ys(ps)[1..] == Ys(ps[1..]);
      assert Mask(Xs(ps), Ys(ps))[1..] == Mask(Xs(ps[1..]), Ys(ps[1..]));
      SelectMaskIsKeepInside(ps[1..]);
    }
  }

  /**
    The mask applied to the two columns separately keeps the pairs aligned:
    stacking the filtered columns gives exactly the detections inside the
    border, each with its own x and y, in detection order.
   */
  lemma BorderFilterAligned(xs: seq<real>, ys: seq<real>)
    requires |xs| == |ys|
    ensures Stack(BorderFilter(xs, ys).0, BorderFilter(xs, ys).1) == KeepInside(Stack(xs, ys))
  {
    var m := Mask(xs, ys);
    StackSelect(xs, ys, m);
    ColumnsOfStack(xs, ys);
    SelectMaskIsKeepInside(Stack(xs, ys));
  }

  /** A position survives the cut exactly when it was detected and lies strictly inside the limits. */
  lemma {:induction false} KeepInsideMembers(ps: seq<Pos>, p: Pos)
    ensures p in KeepInside(ps) <==> p in ps && Inside(p.x, p.y)
  {
    if ps != [] {
      KeepInsideMembers(ps[1..], p);
      assert p in ps <==> p == ps[0] || p in ps[1..];
    }
  }

  /** The detector indices of the sources that survive the cut, in increasing order. */
  function InsideIndices(ps: seq<Pos>, from: nat): (r: seq<nat>)
    decreases |ps|
  {
    if ps == [] then []
    else if Inside(ps[0].x, ps[0].y) then [from] + InsideIndices(ps[1..], from + 1)
    else InsideIndices(ps[1..], from + 1)
  }

  lemma {:induction false} InsideIndicesLength(ps: seq<Pos>, from: nat)
    ensures |InsideIndices(ps, from)| == |KeepInside(ps)|
    decreases |ps|
  {
    if ps != [] {
      InsideIndicesLength(ps[1..], from + 1);
    }
  }

  lemma {:induction false} InsideIndicesBounds(ps: seq<Pos>, from: nat)
    ensures forall k | 0 <= k < |InsideIndices(ps, from)| ::
      from <= InsideIndices(ps, from)[k] < from + |ps|
    decreases |ps|
  {
    if ps != [] {
      InsideIndicesBounds(ps[1..], from + 1);
    }
  }

  lemma {:induction false} InsideIndicesPick(ps: seq<Pos>, from: nat)
    ensures |InsideIndices(ps, from)| == |KeepInside(ps)|
    ensures forall k | 0 <= k < |KeepInside(ps)| ::
      from <= InsideIndices(ps, from)[k] < from + |ps| &&
      KeepInside(ps)[k] == ps[InsideIndices(ps, from)[k] - from]
    decreases |ps|
  {
    InsideIndicesLength(ps, from);
    InsideIndicesBounds(ps, from);
    if ps != [] {
      InsideIndicesPick(ps[1..], from + 1);
      var idx, rest := InsideIndices(ps, from), InsideIndices(ps[1..], from + 1);
      var kept, keptRest := KeepInside(ps), KeepInside(ps[1..]);
      var d := if Inside(ps[0].x, ps[0].y) then 1 else 0;
      forall k | d <= k < |kept|
        ensures kept[k] == ps[idx[k] - from]
      {
        assert kept[k] == keptRest[k - d];
        assert idx[k] == rest[k - d];
        assert ps[1..][rest[k - d] - (from + 1)] == ps[idx[k] - from];
      }
    }
  }

  lemma {:induction false} InsideIndicesIncreasing(ps: seq<Pos>, from: nat)
    ensures forall k, l | 0 <= k < l < |InsideIndices(ps, from)| ::
      InsideIndices(ps, from)[k] < InsideIndices(ps, from)[l]
    decreases |ps|
  {
    if ps != [] {
      InsideIndicesIncreasing(ps[1..], from + 1);
      InsideIndicesBounds(ps[1..], from + 1);
    }
  }

  lemma {:induction false} InsideIndicesComplete(ps: seq<Pos>, from: nat)
    ensures forall i | 0 <= i < |ps| && Inside(ps[i].x, ps[i].y) :: from + i in InsideIndices(ps, from)
    decreases |ps|
  {
    if ps != [] {
      InsideIndicesComplete(ps[1..], from + 1);
      var rest := InsideIndices(ps[1..], from + 1);
      forall i | 1 <= i < |ps| && Inside(ps[i].x, ps[i].y)
        ensures from + i in InsideIndices(ps, from)
      {
        assert ps[1..][i - 1] == ps[i];
        assert from + 1 + (i - 1) in rest;
      }
    }
  }

  /**
    The survivors keep their detector order: survivor k is the source with
    detector index `InsideIndices(ps, 0)[k]`, the indices increase strictly,
    and every index of a source inside the border appears among them.
   */
  lemma KeepInsideOrder(ps: seq<Pos>, from: nat)
    ensures |InsideIndices(ps, from)| == |KeepInside(ps)|
    ensures forall k | 0 <= k < |KeepInside(ps)| ::
      from <= InsideIndices(ps, from)[k] < from + |ps| &&
      KeepInside(ps)[k] == ps[InsideIndices(ps, from)[k] - from]
    ensures forall k, l | 0 <= k < l < |KeepInside(ps)| :: InsideIndices(ps, from)[k] < InsideIndices(ps, from)[l]
    ensures forall i | 0 <= i < |ps| && Inside(ps[i].x, ps[i].y) :: from + i in InsideIndices(ps, from)
  {
    InsideIndicesPick(ps, from);
    InsideIndicesIncreasing(ps, from);
    InsideIndicesComplete(ps, from);
  }

  /** Cutting an already cut catalogue changes nothing. */
  lemma {:induction false} KeepInsideIdempotent(ps: seq<Pos>)
    ensures KeepInside(KeepInside(ps)) == KeepInside(ps)
  {
    if ps != [] {
      KeepInsideIdempotent(ps[1..]);
    }
  }

  /** The column form of the cut is idempotent too. */
  lemma BorderFilterIdempotent(xs: seq<real>, ys: seq<real>)
    requires |xs| == |ys|
    ensures BorderFilter(BorderFilter(xs, ys).0, BorderFilter(xs, ys).1) == BorderFilter(xs, ys)
  {
    var (fx, fy) := BorderFilter(xs, ys);
    BorderFilterAligned(xs, ys);
    BorderFilterAligned(fx, fy);
    KeepInsideIdempotent(Stack(xs, ys));
    ColumnsOfStack(fx, fy);
    var (gx, gy) := BorderFilter(fx, fy);
    ColumnsOfStack(gx, gy);
  }

  /** The limits are strict: a source exactly on 150 or on 1850 is dropped. */
  lemma BorderIsStrict()
    ensures KeepInside([Pos(150.0, 500.0), Pos(151.0, 500.0), Pos(500.0, 1850.0), Pos(1849.5, 150.5)])
         == [Pos(151.0, 500.0), Pos(1849.5, 150.5)]
  {
  }
}

=== FILE: statistics.dfy ===
/**
  The pixel statistics the flat-field normalisation needs: `np.median` of a
  frame, defined through a sorted copy of its pixels, and how it reacts to
  multiplying every pixel by the same positive factor.
 */
module Statistics {

  ghost predicate Sorted(s: seq<real>)
  {
    forall i, j | 0 <= i < j < |s| :: s[i] <= s[j]
  }

  /** `f` applied to every element of `s`. */
  function Apply(s: seq<real>, f: real -> real): (r: seq<real>)
    ensures |r| == |s|
    ensures forall i | 0 <= i < |s| :: r[i] == f(s[i])
  {
    seq(|s|, i requires 0 <= i < |s| => f(s[i]))
  }

  /** Every pixel of `s` multiplied by `c`. */
  function Scale(s: seq<real>, c: real): (r: seq<real>)
    ensures |r| == |s|
    ensures forall i | 0 <= i < |s| :: r[i] == s[i] * c
  {
    Apply(s, Times(c))
  }

  /** Multiplication by `c`, as a map on pixel values. */
  function Times(c: real): real -> real
  {
    y => y * c
  }

  /** Division by `m`, as a map on pixel values. */
  function Over(m: real): real -> real
    requires m != 0.0
  {
    y => y / m
  }

  lemma OverSelf(m: real)
    requires m != 0.0
    ensures Over(m)(m) == 1.0
  {
  }

  lemma OverIncreasing(m: real)
    requires m > 0.0
    ensures StrictlyIncreasing(Over(m))
  {
    forall a, b | a < b
      ensures Over(m)(a) < Over(m)(b)
    {
      assert (b - a) / m > 0.0;
      assert b / m - a / m == (b - a) / m;
    }
  }

  lemma MidpointOver(a: real, b: real, m: real)
    requires m != 0.0
    ensures Over(m)((a + b) / 2.0) == (Over(m)(a) + Over(m)(b)) / 2.0
  {
    assert (a + b) / 2.0 / m == (a / m + b / m) / 2.0;
  }

  lemma MidpointTimes(a: real, b: real, c: real)
    ensures Times(c)((a + b) / 2.0) == (Times(c)(a) + Times(c)(b)) / 2.0
  {
    assert (a + b) / 2.0 * c == (a * c + b * c) / 2.0;
  }

  lemma OverKeepsMidpoints(m: real)
    requires m != 0.0
    ensures KeepsMidpoints(Over(m))
  {
    forall a, b
      ensures Over(m)((a + b) / 2.0) == (Over(m)(a) + Over(m)(b)) / 2.0
    {
      MidpointOver(a, b, m);
    }
  }

  /** Scaling a pixel and the divisor by the same positive factor leaves the quotient unchanged. */
  lemma OverTimes(m: real, k: real)
    requires m != 0.0
    requires k > 0.0
    ensures Times(k)(m) != 0.0
    ensures forall y :: Over(Times(k)(m))(Times(k)(y)) == Over(m)(y)
  {
    assert Times(k)(m) == m * k;
    forall y
      ensures Over(m * k)(y * k) == Over(m)(y)
    {
      assert (y * k) / (m * k) == y / m;
    }
  }

  /** Mapping twice is mapping once by the composite. */
  lemma ApplyApply(s: seq<real>, f: real -> real, g: real -> real, h: real -> real)
    requires forall y :: g(f(y)) == h(y)
    ensures Apply(Apply(s, f), g) == Apply(s, h)
  {
    var a, b := Apply(Apply(s, f), g), Apply(s, h);
    forall i | 0 <= i < |s|
      ensures a[i] == b[i]
    {
      var y := s[i];
      assert g(f(y)) == h(y);
    }
  }

  ghost predicate StrictlyIncreasing(f: real -> real)
  {
    forall a, b | a < b :: f(a) < f(b)
  }

  lemma ApplyCons(x: real, s: seq<real>, f: real -> real)
    ensures Apply([x] + s, f) == [f(x)] + Apply(s, f)
  {
    var a, b := Apply([x] + s, f), [f(x)] + Apply(s, f);
    forall i | 0 <= i < |a|
      ensures a[i] == b[i]
    {
      if i > 0 {
        assert a[i] == f(s[i - 1]);
      }
    }
  }

  /** Inserts `x` into `s` just before the first element that is not below it. */
  function Insert(x: real, s: seq<real>): (r: seq<real>)
    ensures multiset(r) == multiset(s) + multiset{x}
    ensures |r| == |s| + 1
  {
    if s == [] then [x]
    else if x <= s[0] then [x] + s
    else
      assert s == [s[0]] + s[1..];
      [s[0]] + Insert(x, s[1..])
  }

  /** A value below `x` and below all of `s` is below every element after insertion. */
  lemma {:induction false} InsertLowerBound(b: real, x: real, s: seq<real>)
    requires b <= x
    requires forall k | 0 <= k < |s| :: b <= s[k]
    ensures forall k | 0 <= k < |Insert(x, s)| :: b <= Insert(x, s)[k]
  {
    if s != [] && x > s[0] {
      InsertLowerBound(b, x, s[1..]);
    }
  }

  lemma {:induction false} InsertSorted(x: real, s: seq<real>)
    requires Sorted(s)
    ensures Sorted(Insert(x, s))
  {
    if s != [] && x > s[0] {
      InsertSorted(x, s[1..]);
      InsertLowerBound(s[0], x, s[1..]);
    }
  }

  /** The pixels of `s` in ascending order (insertion sort). */
  function Sort(s: seq<real>): (r: seq<real>)
    ensures Sorted(r)
    ensures multiset(r) == multiset(s)
    ensures |r| == |s|
  {
    if s == [] then []
    else
      assert s == [s[0]] + s[1..];
      var t := Sort(s[1..]);
      InsertSorted(s[0], t);
      Insert(s[0], t)
  }

  /**
    `np.median` of a non-empty frame: the middle pixel of the sorted frame, or
    the mean of the two middle pixels when the frame has an even number of them.
   */
  function Median(s: seq<real>): real
    requires |s| > 0
  {
    Middle(Sort(s))
  }

  /** The middle element of a sorted sequence, or the mean of its two middle elements. */
  function Middle(t: seq<real>): real
    requires |t| > 0
  {
    var n := |t|;
    if n % 2 == 1 then t[n / 2] else (t[n / 2 - 1] + t[n / 2]) / 2.0
  }

  lemma SortedTail(s: seq<real>)
    requires Sorted(s)
    requires |s| > 0
    ensures Sorted(s[1..])
  {
    forall i, j | 0 <= i < j < |s| - 1
      ensures s[1..][i] <= s[1..][j]
    {
      assert s[1..][i] == s[i + 1] && s[1..][j] == s[j + 1];
    }
  }

  lemma {:induction false} InsertApply(x: real, s: seq<real>, f: real -> real)
    requires Sorted(s)
    requires StrictlyIncreasing(f)
    ensures Insert(f(x), Apply(s, f)) == Apply(Insert(x, s), f)
  {
    var fs := Apply(s, f);
    if s == [] {
      ApplyCons(x, [], f);
      assert [x] + [] == [x];
      assert fs == [];
    } else if x <= s[0] {
      if x < s[0] {
        assert f(x) < f(s[0]);
      }
      assert fs != [] && fs[0] == f(s[0]);
      assert Insert(f(x), fs) == [f(x)] + fs;
      ApplyCons(x, s, f);
    } else {
      assert f(s[0]) < f(x);
      assert s == [s[0]] + s[1..];
      ApplyCons(s[0], s[1..], f);
      assert fs != [] && fs[0] == f(s[0]) && fs[1..] == Apply(s[1..], f);
      assert Insert(f(x), fs) == [f(s[0])] + Insert(f(x), Apply(s[1..], f));
      SortedTail(s);
      InsertApply(x, s[1..], f);
      ApplyCons(s[0], Insert(x, s[1..]), f);
    }
  }

  /** Sorting commutes with a strictly increasing map. */
  lemma {:induction false} SortApply(s: seq<real>, f: real -> real)
    requires StrictlyIncreasing(f)
    ensures Sort(Apply(s, f)) == Apply(Sort(s), f)
  {
    if s != [] {
      var t := Sort(s[1..]);
      var fs := Apply(s, f);
      assert s == [s[0]] + s[1..];
      ApplyCons(s[0], s[1..], f);
      assert fs != [] && fs[0] == f(s[0]) && fs[1..] == Apply(s[1..], f);
      assert Sort(fs) == Insert(fs[0], Sort(fs[1..]));
      SortApply(s[1..], f);
      InsertApply(s[0], t, f);
      assert Sort(s) == Insert(s[0], t);
    }
  }

  lemma TimesIncreasing(c: real)
    requires c > 0.0
    ensures StrictlyIncreasing(Times(c))
  {
    forall a, b | a < b
      ensures Times(c)(a) < Times(c)(b)
    {
      assert (b - a) * c > 0.0;
    }
  }

  /** `f` maps the midpoint of two values to the midpoint of their images. */
  ghost predicate KeepsMidpoints(f: real -> real)
  {
    forall a, b :: f((a + b) / 2.0) == (f(a) + f(b)) / 2.0
  }

  lemma MiddleApply(t: seq<real>, f: real -> real)
    requires |t| > 0
    requires KeepsMidpoints(f)
    ensures Middle(Apply(t, f)) == f(Middle(t))
  {
    var n := |t|;
    if n % 2 == 0 {
      assert f((t[n / 2 - 1] + t[n / 2]) / 2.0) == (f(t[n / 2 - 1]) + f(t[n / 2])) / 2.0;
    }
  }

  /** The median commutes with an increasing map that keeps midpoints. */
  lemma MedianApply(s: seq<real>, f: real -> real)
    requires |s| > 0
    requires StrictlyIncreasing(f)
    requires KeepsMidpoints(f)
    ensures Median(Apply(s, f)) == f(Median(s))
  {
    SortApply(s, f);
    MiddleApply(Sort(s), f);
  }

  lemma TimesKeepsMidpoints(c: real)
    ensures KeepsMidpoints(Times(c))
  {
    forall a, b
      ensures Times(c)((a + b) / 2.0) == (Times(c)(a) + Times(c)(b)) / 2.0
    {
      MidpointTimes(a, b, c);
    }
  }

  /** The median of a frame scaled by a positive factor is the scaled median. */
  lemma MedianScale(s: seq<real>, c: real)
    requires |s| > 0
    requires c > 0.0
    ensures Median(Scale(s, c)) == Times(c)(Median(s))
  {
    TimesIncreasing(c);
    TimesKeepsMidpoints(c);
    MedianApply(s, Times(c));
  }

  /** The median of a frame lies between its smallest and its largest pixel. */
  lemma MedianBetween(s: seq<real>)
    requires |s| > 0
    ensures exists i | 0 <= i < |s| :: s[i] <= Median(s)
    ensures exists j | 0 <= j < |s| :: Median(s) <= s[j]
  {
    var t := Sort(s);
    var n := |t|;
    var lo := if n % 2 == 1 then n / 2 else n / 2 - 1;
    assert t[lo] <= Median(s) <= t[n / 2];
    assert t[lo] in multiset(s) && t[n / 2] in multiset(s);
    var i :| 0 <= i < |s| && s[i] == t[lo];
    var j :| 0 <= j < |s| && s[j] == t[n / 2];
  }

  /** A frame whose pixels all hold the same value has that value as its median. */
  lemma MedianConstant(s: seq<real>, v: real)
    requires |s| > 0
    requires forall i | 0 <= i < |s| :: s[i] == v
    ensures Median(s) == v
  {
    var t := Sort(s);
    forall k | 0 <= k < |t|
      ensures t[k] == v
    {
      assert t[k] in multiset(s);
    }
  }
}

=== FILE: storage.dfy ===
/** The file system as the reduction and photometry code sees it. */
module Storage {

  /** A detector frame, its pixels flattened row by row. */
  type Image = seq<real>

  /** One line of a whitespace-separated numeric text file. */
  type Row = seq<real>

  /** A numeric text file as `np.savetxt` writes it: one row per line. */
  type Table = seq<Row>

  /** The FITS images and the text tables present on disk, keyed by path. */
  datatype Store = Store(images: map<string, Image>, tables: map<string, Table>)

  /** The `"{}/{}".format(directory, name)` paths built throughout the code. */
  function Path(dir: string, name: string): string
  {
    dir + "/" + name
  }

  /** Within one directory, different file names give different paths. */
  lemma PathInjective(dir: string, a: string, b: string)
    requires Path(dir, a) == Path(dir, b)
    ensures a == b
  {
    assert a == Path(dir, a)[|dir| + 1..];
    assert b == Path(dir, b)[|dir| + 1..];
  }
}
